=== FILE: README.md ===
# Tasker task-hierarchy engine in Dafny

Tasker is a small always-on-top to-do panel. Its tasks live in one flat, ordered list of
records (`text`, `done`, `star`, `indent`, `reminder`). The hierarchy is implied by `indent`
alone: a task's *group* is the task itself plus the contiguous run of strictly deeper tasks
that follows it. This project models, as pure functions over `seq<Task>`:

- the controller's editing operations (`tasker/ui/app.py`): cascading completion, star
  cycling, insert-below, committing the entry row, text edits, indent and unindent, delete
  with selection clamping, and grouped move up and down;
- the list view (`tasker/ui/task_list.py`): the Active/Completed filter, the
  display-to-storage `index_map`, the rows with their selection highlight, the row lookup
  behind focus and flash, and arrow-key navigation over the map;
- the periodic reminder sweep;
- the mapping of a task to the body of a Microsoft To Do task, the date conversions, the
  order in which bodies are created, and the choice of the signed-in account
  (`tasker/ms_todo_sync.py`);
- the Ctrl+K, Ctrl+K chord detector and the layered Escape key.

Modules: `Tasks` holds the record, the star palette, and the depth invariants. `Text` holds
Python's `str.strip`. `Groups` holds the group extent. `Edits` holds the field edits,
insertion, indentation and deletion. `Moves` holds the grouped moves. `View` holds the
projection. `Reminders` holds the sweep. `Sync` holds the payload mapping. `Keys` holds the
two keyboard state machines.

Operations that move the selection (insert-below, delete, move up and move down) return the
new list together with the new selection, as `Edit(tasks, selected)`; the others return the
new list alone. Where a handler guards with `index < len(tasks)` (Ctrl+Space, Alt+S, Ctrl+D,
text edits), the model keeps that guard as a no-op branch. The handlers that index the list
without a guard require an index in range; "## Left out" lists them. A missing key of a stored task is read at its
default, so every field of `Task` is always present. Reminder parsing (`fromisoformat`) is a
function parameter returning `Unparseable`, `Naive(wall)` or `Aware(wall, offset)`. Times are
integer microseconds, except in `Keys`, which uses milliseconds. The wall clock, the local
zone's offset and the current UTC time are parameters too.

In these places the code does not do what a reader of the handler names might expect; the
model follows the code:

- Completing a group twice is not the identity. The second Ctrl+Space forces the whole group
  to the head's original value (`Edits.ToggleDoneKbTwice`). A mixed group therefore does not
  come back (`Edits.ToggleDoneKbTwiceMixed`).
- Only indenting checks "no task more than one level deeper than its predecessor". Insert
  below, committing the entry row and the field edits keep it too
  (`Edits.InsertBelowKeepsBound`, `Edits.CommitPlaceholderKeepsBound`,
  `Edits.FieldEditsKeepBound`), but unindent, delete, move up and move down can break it (`Edits.UnindentCanBreakBound`,
  `Edits.DeleteCanBreakBound`, `Moves.MoveUpCanBreakBound`, `Moves.MoveDownCanBreakBound`).
- Move up hops the single task above the group, not the group above it. Move up followed by
  move down therefore restores the list only under conditions on the neighbouring depths
  (`Moves.MoveUpThenDown`, `Moves.MoveUpThenDownAsymmetric`).
- Move up with an index past the end leaves the list alone but still selects `index - 1`.

## Model

| member | source | states |
|---|---|---|
| Groups.GetTaskGroup | tasker/ui/app.py:302-313 | The forward scan returns the group extent: `(i, i + 1)` past the end, otherwise `(i, e)` with everything in `(i, e)` deeper than the head and `e` at the end or at a task no deeper than it. |
| Groups.GroupExtent | tasker/ui/app.py:302-313 | The extent is never empty, stays inside the list, covers only strictly deeper tasks, and stops at the first task no deeper than the head. |
| Groups.ScanEnd | tasker/ui/app.py:308-312 | The scan stops at the first task at or above the given depth, and every task it passed is deeper. |
| Groups.GroupExtentShape | tasker/ui/app.py:302-313 | Groups depend only on the indents: two lists of the same shape group alike. |
| Edits.Cascade | tasker/ui/app.py:193-198 | The cascade loop gives the new value to exactly the run of deeper tasks from the start position up to the first task that is not deeper, and leaves every other task as it was. |
| Edits.ToggleDone | tasker/ui/app.py:189-199 | A checkbox click sets `done` to the clicked value on exactly the tasks of the clicked task's group; all other tasks and all other fields are unchanged. |
| Edits.ToggleDoneKb | tasker/ui/app.py:270-282 | Ctrl+Space gives the whole group the negation of the head's flag; an index past the end changes nothing. |
| Edits.ToggleDoneKeepsGroups | tasker/ui/app.py:189-199 | Toggling completion never changes a depth, so every group extent is the same afterwards. |
| Edits.ToggleDoneKbTwice | tasker/ui/app.py:270-282 | Two Ctrl+Space presses equal one click that sets the group to the head's original value. |
| Edits.ToggleDoneKbTwiceUniform | tasker/ui/app.py:270-282 | When the whole group already agrees with its head, two presses give back the original list. |
| Edits.ToggleDoneKbTwiceMixed | tasker/ui/app.py:270-282 | With an open parent and a completed child, two presses reopen the child, so the list does not come back. |
| Edits.ToggleDoneCascadeExample | tasker/ui/app.py:193-198 | Completing a parent completes its child and stops at the next top-level task. |
| Edits.ToggleStar | tasker/ui/app.py:201-204 | The star advances by one modulo the 7 palette colours, so it always lands in `[0, 7)`, even from a stored value out of range; nothing else changes. |
| Edits.ToggleStarKb | tasker/ui/app.py:284-288 | Alt+S advances the star, or changes nothing for an index past the end. |
| Edits.ToggleStarTimesValue | tasker/constants.py:4-7 | After `n` presses an in-range star has advanced by `n` modulo the number of palette colours. |
| Edits.ToggleStarCycle | tasker/constants.py:4-7 | Seven presses bring an in-range star back to where it started. |
| Edits.InsertBelow | tasker/ui/app.py:206-215 | Insert-below adds one blank task at the same depth right after `i`, keeps every other task in order around it, and selects the new task. |
| Edits.InsertBelowEndsGroup | tasker/ui/app.py:206-215 | The new sibling ends the group of the task it was inserted under. |
| Edits.CommitPlaceholder | tasker/ui/app.py:351-358 | Committed entry text is stripped and appended as a new top-level task with non-empty text; all-whitespace input changes nothing. |
| Edits.UpdateText | tasker/ui/app.py:184-187 | A text edit replaces the text of a pending task in range; a done task, an index past the end, and every other task are left unchanged. |
| Edits.UpdateTextLastWins | tasker/ui/app.py:184-187 | Two edits in a row leave only the second. |
| Edits.Indent | tasker/ui/app.py:217-224 | Indent takes effect exactly when `i > 0` and the task is no deeper than its predecessor; it adds one level to that task only, so the task ends at most one level below its predecessor. |
| Edits.Unindent | tasker/ui/app.py:226-231 | Unindent removes one level only from a task deeper than the top level; nothing else changes, and depths never go negative. |
| Edits.IndentKeepsBound | tasker/ui/app.py:217-224 | Indenting keeps every task at most one level below its predecessor. |
| Edits.IndentKeepsNonNeg | tasker/ui/app.py:217-224 | Indenting keeps every depth non-negative. |
| Edits.IndentThenUnindent | tasker/ui/app.py:217-231 | For a task at a non-negative depth, an indent that took effect is undone by an unindent of the same row. |
| Edits.UnindentCanBreakBound | tasker/ui/app.py:226-231 | Unindenting a middle task can leave its child two levels below it. |
| Edits.ClampSelection | tasker/ui/app.py:294-296 | After a deletion leaves `n` tasks, a selection that still points at a task is kept, one at or past the end moves to the last task, and it becomes none exactly when there was none or no task is left; the result always points inside the list. |
| Edits.Delete | tasker/ui/app.py:290-300 | Delete removes exactly task `i` and keeps the rest in order, children included at their own depths (pointwise and as a multiset); the selection is clamped to the shorter list as `Edits.ClampSelection` states; an index past the end changes nothing. |
| Edits.DeleteUndoesInsert | tasker/ui/app.py:290-300 | Deleting the task just inserted below `i` gives back the original list. |
| Edits.DeleteCanBreakBound | tasker/ui/app.py:290-300 | Deleting a parent can leave its child first in the list one level deep. |
| Edits.FieldEditsKeepBound | tasker/ui/app.py:184-204 | Completion, star and text edits keep both depth invariants. |
| Edits.InsertBelowKeepsBound | tasker/ui/app.py:206-215 | Insert-below keeps both depth invariants. |
| Edits.CommitPlaceholderKeepsBound | tasker/ui/app.py:351-358 | Committing the entry row keeps both depth invariants. |
| Moves.SwapBlocks | tasker/ui/app.py:341-345 | Exchanging two adjacent blocks keeps the length and is a permutation. |
| Moves.SwapBlocksBack | tasker/ui/app.py:341-345 | Swapping the two blocks back restores the list. |
| Moves.MoveUp | tasker/ui/app.py:315-330 | Shift+Up changes nothing in the Completed view or on the first row. Past the end it selects `i - 1` only. Otherwise it permutes the list, puts the head at `i - 1` and selects it. |
| Moves.MoveUpSpec | tasker/ui/app.py:320-328 | Moving up is `s[..i-1] + s[i..e] + [s[i-1]] + s[e..]`: the group moves up intact over the single task above it, and nothing outside `[i - 1, e)` moves. |
| Moves.MoveDown | tasker/ui/app.py:332-349 | Shift+Down changes nothing in the Completed view or when the group reaches the end. Otherwise it permutes the list, moves the head past the whole group below, and selects the head. |
| Moves.MoveDownSpec | tasker/ui/app.py:337-346 | Moving down exchanges the group `[i, e)` with the whole group `[e, b)` below it, both intact, and nothing outside `[i, b)` moves. |
| Moves.MoveUpKeepsGroup | tasker/ui/app.py:315-330 | After moving up, the head's new group still covers every task that moved with it. |
| Moves.MoveUpThenDown | tasker/ui/app.py:315-349 | Move up then move down restores the list and the selection when the hopped task is no deeper than the head and the task after the group is no deeper than the hopped one. |
| Moves.MoveDownThenUp | tasker/ui/app.py:315-349 | Moving down past a single task and back up restores the list when the task after the pair is no deeper than the head. |
| Moves.MoveUpThenDownAsymmetric | tasker/ui/app.py:315-349 | For `[X0, G1, R1]`, moving `G` up and back down does not restore the list. |
| Moves.MoveDownExample | tasker/ui/app.py:332-349 | A parent with two children moves below the next top-level task as one block, and the selection follows the parent. |
| Moves.MoveUpCanBreakBound | tasker/ui/app.py:315-330 | Moving a grandchild up over its parent can leave it two levels below its new predecessor. |
| Moves.MoveDownCanBreakBound | tasker/ui/app.py:332-349 | Moving a deep task down past a top-level one can leave it two levels below its new predecessor. |
| Text.Strip | tasker/ui/app.py:352 | Stripping removes exactly the leading and trailing whitespace: the result is a slice of the input with whitespace on both sides, empty exactly for all-whitespace input, and otherwise starts and ends on a non-space. |
| Text.StripIdempotent | tasker/ui/app.py:352 | Stripping twice equals stripping once. |
| View.IndexMapUpTo | tasker/ui/task_list.py:56-65 | The display map is strictly increasing and holds exactly the storage indices whose `done` equals the view's mode. |
| View.BuildIndexMap | tasker/ui/task_list.py:56-65 | The filter loop, with its two `continue` branches, builds exactly that map. |
| View.ViewsPartition | tasker/ui/task_list.py:59-62 | The Active and Completed maps have sizes adding up to the list's length. |
| View.ViewsDisjoint | tasker/ui/task_list.py:59-62 | Every storage index is in exactly one of the two maps. |
| View.Rebuild | tasker/ui/task_list.py:48-79 | There is one read-only-iff-Completed row per map entry, in map order, highlighted iff its index is the selection, followed by the entry row exactly in the Active view. |
| View.RebuildShowsEachOnce | tasker/ui/task_list.py:56-71 | A task gets a row iff it is of the shown kind, and no task gets two rows. |
| View.RebuildHighlightsSelection | tasker/ui/task_list.py:66-69 | At most one row is highlighted, and one is exactly when the selection is an in-range task of the shown kind. |
| View.UpdateSelection | tasker/ui/task_list.py:82-87 | Re-highlighting keeps every row and the map, and marks a task row exactly when its mapped index is the new selection. |
| View.UpdateSelectionAgreesWithRebuild | tasker/ui/task_list.py:82-87 | Re-highlighting a rebuilt listing highlights the same row that a rebuild with the new selection would; background colours, which differ in the Completed view, are not part of the claim. |
| View.FindRowFrom | tasker/ui/task_list.py:89-102 | The lookup returns the first task row whose mapped index is the target, and none when there is no such row. |
| View.FindRowIsDisplayPos | tasker/ui/task_list.py:89-102 | On a rebuilt listing, focus and flash act on the task's display position, and on nothing when the view filters the task out. |
| View.DisplayPos | tasker/ui/app.py:237-241 | The display-position search finds a position iff the task is in the map, and the map holds the task there. |
| View.NavUp | tasker/ui/app.py:234-247 | Up arrow selects the entry just above in the map, and stays put exactly on the first entry or on a task not in the map. |
| View.NavDown | tasker/ui/app.py:249-268 | From any entry but the last, Down arrow selects the entry just below it in the map. From the last entry it focuses the entry row only in the Active view, when the rows end with it. It stays put on a task not in the map. |
| View.NavDownSelectsNextShown | tasker/ui/app.py:249-268 | In a rebuilt listing, down arrow moves to the next task of the shown kind in storage order. From the last one it goes to the entry row in the Active view and stays put in the Completed view. A hidden task does nothing. |
| View.NavUpSelectsPreviousShown | tasker/ui/app.py:234-247 | In a rebuilt listing, up arrow moves to the previous task of the shown kind in storage order, and does nothing from the first one or from a hidden task. |
| Reminders.FirstDue | tasker/ui/app.py:461-466 | The scan finds the first task that is due, or reports that none is. |
| Reminders.Sweep | tasker/ui/app.py:457-479 | A stopped controller does nothing. Otherwise the first due task (pending, truthy reminder, naive time at or before `now`) fires: only its reminder is cleared, the Active view is forced, and it is selected. With no due task nothing changes. |
| Reminders.CheckReminders | tasker/ui/app.py:457-479 | The loop with its early `break` computes the sweep. |
| Reminders.SweepKeepsShape | tasker/ui/app.py:467 | A sweep changes nothing but the fired task's reminder, so the depths and their invariants are untouched. |
| Reminders.SweepAgainFiresLater | tasker/ui/app.py:467 | A fired task never fires again, and a second sweep at the same time fires a later task or none. |
| Reminders.SweepSkipsUncomparable | tasker/ui/app.py:464-478 | Unparseable and offset-aware reminders never fire and are never cleared. |
| Reminders.CountDueClear | tasker/ui/app.py:467 | Clearing a due reminder lowers the number of due tasks by one. |
| Reminders.SweepRetiresOne | tasker/ui/app.py:457-479 | Each firing retires exactly one due reminder, and a sweep fires exactly when something is due. |
| Reminders.SweepFiredRowIsShown | tasker/ui/app.py:471-475 | After a firing, the rebuilt listing has a row for the fired task, so the delayed flash finds it. |
| Sync.ToGraphDate | tasker/ms_todo_sync.py:124-130 | The due date fails exactly on an unparseable string and is labelled UTC. |
| Sync.GraphDateIsWrittenDay | tasker/ms_todo_sync.py:124-130 | The due date is the midnight that starts the written day. |
| Sync.ToGraphDateTimeAsWritten | tasker/ms_todo_sync.py:133-141 | The reminder time fails exactly on an unparseable string and is labelled UTC; a naive time gives its own wall-clock second, unshifted, and an aware time the second of its UTC instant. |
| Sync.AsWrittenAgreesAtUtc | tasker/ms_todo_sync.py:133-141 | On aware times, and on naive times where the local zone is UTC, the written conversion equals the intended one. |
| Sync.NaiveReminderSentUnshifted | tasker/ms_todo_sync.py:136-137 | At UTC+2 a reminder stored as 09:00 local is sent as 09:00 UTC instead of 07:00 UTC. |
| Sync.ToGraphDateTime | tasker/ms_todo_sync.py:133-141 | The intended reminder time fails exactly on an unparseable string and is labelled UTC. |
| Sync.GraphDateTimeIsUtcSecond | tasker/ms_todo_sync.py:133-141 | The reminder time is the reminder's UTC instant with microseconds dropped: an aware time shifted by its offset, a naive one by the local offset. |
| Sync.NaiveIsLocalTime | tasker/ms_todo_sync.py:133-141 | A naive reminder and its spelling with the local offset are sent identically. |
| Sync.NowGraphDateTime | tasker/ms_todo_sync.py:144-146 | The completion time is labelled UTC and is the second that contains the current UTC instant: microseconds are dropped. |
| Sync.TaskPayload | tasker/ms_todo_sync.py:149-164 | The mapping raises exactly when a truthy reminder does not parse. For a truthy reminder the due date is the reminder's written day and the reminder time is the as-written conversion, for naive and aware reminders alike; a done task's completion time is the current UTC second. |
| Sync.TaskPayloadFields | tasker/ms_todo_sync.py:149-164 | The title is the stripped text, or `(untitled)` when that is empty, so it is never empty. The status is `completed` iff done. `importance: high` is present iff the star is positive. The three reminder keys come together iff the reminder is truthy. The completion time is present iff done. |
| Sync.PayloadIgnoresIndent | tasker/ms_todo_sync.py:149-164 | The body does not depend on the depth: the remote list is the flattened hierarchy. |
| Sync.PayloadNaiveReminder | tasker/ms_todo_sync.py:157-161 | For a stored naive reminder, the due day contains the written time, and the reminder time is the written wall-clock second labelled UTC, whatever the local zone. |
| Sync.IntendedTaskPayload | tasker/ms_todo_sync.py:149-164 | The intended body raises exactly when the written one does and equals it in every key but the reminder time, which is the corrected conversion of the reminder. |
| Sync.IntendedPayloadNaiveReminder | tasker/ms_todo_sync.py:157-161 | Under the intended mapping a stored naive reminder is sent as its UTC instant to the second; where the local zone is UTC both mappings send the same body. |
| Sync.PushPayloads | tasker/ms_todo_sync.py:179-180 | The created bodies are the mapped tasks, in list order, up to the first task whose mapping raises, which ends the push. |
| Sync.PushStopsAtFirstBadReminder | tasker/ms_todo_sync.py:179-180 | A push whose first unparseable reminder is at `k` creates exactly `k` bodies and then raises; without one it creates a body for every task. |
| Sync.SelectAccount | tasker/ms_todo_sync.py:35-45 | The result is none iff there are no accounts. A given id that matches picks the first match. Any pick other than the first account matched the id or the username. |
| Sync.SelectAccountFallsBack | tasker/ms_todo_sync.py:35-45 | With no id match the first username match is picked; with neither, the first account. |
| Keys.OnKeyPress | tasker/ui/app.py:130-154 | The chord fires exactly on a Ctrl+K that comes less than a second after an armed Ctrl+K, and then disarms. Any other Ctrl+K arms at `now`. Keys other than Ctrl disarm, and Ctrl keys leave the state alone. |
| Keys.ChordFiresOnSecondPress | tasker/ui/app.py:141-147 | After an arming Ctrl+K, a second one fires iff it comes within one second. |
| Keys.OtherKeyBreaksChord | tasker/ui/app.py:148-151 | A non-Ctrl key between two Ctrl+K presses stops the second from firing. |
| Keys.ChordFiringsNeedTwoPresses | tasker/ui/app.py:130-154 | Over any key sequence, every firing uses up two Ctrl+K presses. |
| Keys.ToggleViewAsWritten | tasker/ui/title_bar.py:48-54 | The title bar's switch flips its own flag and hands it to the list; the rebuild closes an open date picker and the window's visibility is kept. |
| Keys.ReminderForcesActive | tasker/ui/app.py:469-474 | A fired reminder shows the window, closes the date picker, and leaves the list in the Active view without writing the title bar's flag. |
| Reminders.SweepIsReminderForcesActive | tasker/ui/app.py:469-474 | A firing sweep changes the screen as `Keys.ReminderForcesActive` does: list flag to Active, title-bar flag untouched, window shown, picker closed; a sweep that fires nothing changes neither view flag. |
| Keys.ToggleAfterReminderIsNoOp | tasker/ui/app.py:471-472 | After a reminder fires in the Completed view, the list and the title bar disagree, and the next view switch leaves the view unchanged. |
| Keys.ToggleView | tasker/ui/title_bar.py:48-54 | The intended switch always flips the list's view, leaves the title bar in agreement, and closes an open date picker. |
| Keys.ToggleAfterReminderSwitches | tasker/ui/app.py:471-472 | With the intended switch, the first view switch after a reminder always shows the Completed view. |
| Keys.ToggleViewAgreesInSync | tasker/ui/title_bar.py:48-54 | While list and title bar agree, the written switch equals the intended one. |
| Keys.Escape | tasker/ui/app.py:424-436 | Escape peels exactly one layer: it dismisses an open picker, else leaves the Completed view, else hides the window. |
| Keys.EscapeThriceHides | tasker/ui/app.py:424-436 | Three presses always reach no picker, the Active view and a hidden window, and that state is a fixed point. |

## Left out

- Tk widget construction, styling, colours, focus rings, scrolling, resizing and dragging are
  not modelled. The date-picker widgets, message boxes and the flash colour are also left
  out. These are UI. Focus and flash are modelled only as the row they act on.
- Saving and loading the task file, and the `_save_and_rebuild` after each edit, are not
  modelled: they are file I/O. The model's list is the in-memory list after the edit.
- Reminders.Sweep: the `_save()` call inside the sweep's `try` block is not modelled. A save
  that raised there would be swallowed after the reminder was already cleared, and the scan
  would go on.
- The external-edit file watcher, the tray icon, and the global hook's thread hand-off are
  not modelled. They are polling, OS callbacks and threads.
- Token acquisition, the token cache and HTTP requests are not modelled: they are a network
  client and a foreign library. Only the order of created bodies is modelled
  (`Sync.PushPayloads`). `Sync.SelectAccount` receives the account list that the cache would
  return.
- Sync.GraphTime: a `dateTimeTimeZone` string is modelled by the second it prints.
  `strftime` itself, and years outside 1 to 9999, are not modelled.
- Sync.ToGraphDate: the written date is computed on a time line whose epoch falls on a
  midnight. Calendar arithmetic is not modelled.
- Keys.IsCtrlK: the key name is taken as already lower-cased. Python's `str.lower` is not
  modelled, and neither is the exception path for an event with no attributes.
- Keys.Escape: it uses the corrected view switch. The written one differs only when the list
  shows Completed while the title bar says Active, and no code path reaches that state.
- Edits.ToggleDone: requires an index in range, because the checkbox handler indexes the list
  without a guard and would raise `IndexError` otherwise (the raise is not modelled).
- Edits.ToggleStar: requires an index in range, for the same reason (the click handler);
  `Edits.ToggleStarKb` models the guarded Alt+S path.
- Edits.InsertBelow: requires an index in range; Shift+Return reads the task's depth without
  a guard and would raise `IndexError` otherwise.
- Edits.Indent: requires `i == 0` or an index in range; with `i > 0` the handler reads the task
  without a guard and would raise `IndexError` otherwise.
- Edits.Unindent: requires an index in range; the handler reads the task without a guard and
  would raise `IndexError` otherwise.
- Sync.Env: one reading of the UTC clock serves a whole push, while the source reads the
  clock anew for each done task; successive completion times in one push are therefore not
  modelled as distinct.
- Selection by mouse focus (`_select_row`) is covered by `View.UpdateSelection`. The inline
  reminder picker, settings and key-binding dialogs are not part of this model.
- Text.Strip: whitespace follows `str.isspace` for the code points listed in `Text.IsSpace`.
  Other Unicode properties are not modelled.

## Findings

| source | as written | input that shows it | evidently intended | confidence | as-written member | corrected member |
|---|---|---|---|---|---|---|
| tasker/ms_todo_sync.py:136-137 | A naive reminder is labelled UTC without shifting. But reminders are stored as naive local times, and the sweep compares them with the local clock. `Sync.TaskPayload` and the push send the time as written; `Sync.IntendedTaskPayload` is the body with the corrected time. | At UTC+2, a reminder stored as `09:00` is sent as `09:00 UTC`, which is 11:00 local (`Sync.NaiveReminderSentUnshifted`). | Convert a naive reminder from local time to UTC, as an aware one is converted. | medium, not executed | Sync.ToGraphDateTimeAsWritten | Sync.ToGraphDateTime |
| tasker/ui/app.py:471-472 | The sweep sets the list's view to Active, but the title bar keeps its own flag and switches by negating that flag. | Fire a reminder while the Completed view is shown, then press Alt+C. The view stays Active, and the title bar has read "Completed" since the reminder fired (`Keys.ToggleAfterReminderIsNoOp`). | Every view switch flips the view actually shown. | high, not executed | Keys.ToggleViewAsWritten | Keys.ToggleView |

=== FILE: edits.dfy ===
/** The in-place edits of the task list: completion with cascade, star cycling, insertion,
    placeholder commit, text edits, indent, unindent and delete. Each is a pure function
    from the old sequence (and selection) to the new one. */
module Edits {
  import opened Tasks
  import opened Groups
  import Text

  /** `a` and `b` agree on every field but `done`. */
  predicate SameButDone(a: Task, b: Task) {
    a.(done := b.done) == b
  }

  // ---------------------------------------------------------------------------------------
  // Completion

  /** The cascade loop: from `j` on, give every task deeper than `depth` the value `v`,
      stopping at the first task that is not deeper. */
  function Cascade(s: seq<Task>, depth: int, j: nat, v: bool): (r: seq<Task>)
    requires j <= |s|
    ensures |r| == |s|
    ensures forall k :: 0 <= k < |s| ==>
              r[k] == (if j <= k < ScanEnd(s, depth, j) then s[k].(done := v) else s[k])
    decreases |s| - j
  {
    if j == |s| || s[j].indent <= depth then s
    else
      var s' := s[j := s[j].(done := v)];
      ScanEndShape(s, s', depth, j + 1);
      Cascade(s', depth, j + 1, v)
  }

  /** Clicking the checkbox of task `i` with new value `v`: exactly the tasks of `i`'s group
      get `done == v`; every other task, and every other field, is left alone. */
  function ToggleDone(s: seq<Task>, i: nat, v: bool): (r: seq<Task>)
    requires i < |s|
    ensures |r| == |s|
    ensures forall k :: 0 <= k < |s| ==> r[k].done == (if InGroup(s, i, k) then v else s[k].done)
    ensures forall k :: 0 <= k < |s| ==> SameButDone(r[k], s[k])
  {
    var s' := s[i := s[i].(done := v)];
    ScanEndShape(s, s', s[i].indent, i + 1);
    Cascade(s', s[i].indent, i + 1, v)
  }

  /** Ctrl+Space on task `i`: the group takes the negation of the head's flag. An index past
      the end changes nothing. */
  function ToggleDoneKb(s: seq<Task>, i: nat): (r: seq<Task>)
    ensures i >= |s| ==> r == s
    ensures |r| == |s|
    ensures i < |s| ==> forall k :: 0 <= k < |s| ==>
              r[k].done == (if InGroup(s, i, k) then !s[i].done else s[k].done)
    ensures forall k :: 0 <= k < |s| ==> SameButDone(r[k], s[k])
  {
    if i < |s| then ToggleDone(s, i, !s[i].done) else s
  }

  /** Toggling completion never moves a task or changes a depth, so groups stay the same. */
  lemma ToggleDoneKeepsGroups(s: seq<Task>, i: nat, v: bool, j: nat)
    requires i < |s|
    ensures SameShape(s, ToggleDone(s, i, v))
    ensures GroupExtent(ToggleDone(s, i, v), j) == GroupExtent(s, j)
  {
    var r := ToggleDone(s, i, v);
    assert forall k :: 0 <= k < |s| ==> r[k].indent == s[k].indent by {
      forall k | 0 <= k < |s| ensures r[k].indent == s[k].indent {
        assert SameButDone(r[k], s[k]);
      }
    }
    GroupExtentShape(s, r, j);
  }

  /** Pressing Ctrl+Space twice does not undo the first press when the group is mixed: the
      second press forces the whole group to the head's ORIGINAL value. */
  lemma ToggleDoneKbTwice(s: seq<Task>, i: nat)
    requires i < |s|
    ensures ToggleDoneKb(ToggleDoneKb(s, i), i) == ToggleDone(s, i, s[i].done)
  {
    var t := ToggleDoneKb(s, i);
    ToggleDoneKeepsGroups(s, i, !s[i].done, i);
    assert t[i].done == !s[i].done;
    var a := ToggleDoneKb(t, i);
    var b := ToggleDone(s, i, s[i].done);
    assert forall k :: 0 <= k < |s| ==> a[k] == b[k] by {
      forall k | 0 <= k < |s| ensures a[k] == b[k] {
        assert SameButDone(a[k], t[k]) && SameButDone(t[k], s[k]) && SameButDone(b[k], s[k]);
      }
    }
  }

  /** When the whole group already agrees with its head, two presses restore the list. */
  lemma ToggleDoneKbTwiceUniform(s: seq<Task>, i: nat)
    requires i < |s|
    requires forall k :: 0 <= k < |s| && InGroup(s, i, k) ==> s[k].done == s[i].done
    ensures ToggleDoneKb(ToggleDoneKb(s, i), i) == s
  {
    ToggleDoneKbTwice(s, i);
    var b := ToggleDone(s, i, s[i].done);
    assert forall k :: 0 <= k < |s| ==> b[k] == s[k] by {
      forall k | 0 <= k < |s| ensures b[k] == s[k] {
        assert SameButDone(b[k], s[k]);
      }
    }
  }

  /** A parent that is open with a completed child: two presses complete nothing and
      reopen the child, so the list is not restored. */
  lemma ToggleDoneKbTwiceMixed()
    ensures var s := [Task("A", false, 0, 0, None), Task("B", true, 0, 1, None)];
            ToggleDoneKb(ToggleDoneKb(s, 0), 0) != s
  {
    var s := [Task("A", false, 0, 0, None), Task("B", true, 0, 1, None)];
    ToggleDoneKbTwice(s, 0);
    var b := ToggleDone(s, 0, false);
    assert InGroup(s, 0, 1);
    assert b[1].done == false;
  }

  /** Completing a parent completes its child and stops at the next top-level task. */
  lemma ToggleDoneCascadeExample()
    ensures var s := [Task("A", false, 0, 0, None), Task("B", false, 0, 1, None),
                      Task("C", false, 0, 0, None)];
            var r := ToggleDoneKb(s, 0);
            r[0].done && r[1].done && !r[2].done
  {
    var s := [Task("A", false, 0, 0, None), Task("B", false, 0, 1, None),
              Task("C", false, 0, 0, None)];
    assert GroupEnd(s, 0) == 2 by {
      assert ScanEnd(s, 0, 2) == 2;
    }
  }

  // ---------------------------------------------------------------------------------------
  // Stars

  /** Advancing the star of task `i` to the next colour: the new value is the old one plus
      one, reduced into `[0, NumStarColors)` (so an out-of-range stored value is pulled
      back into range); nothing else changes. */
  function ToggleStar(s: seq<Task>, i: nat): (r: seq<Task>)
    requires i < |s|
    ensures |r| == |s|
    ensures 0 <= r[i].star < NumStarColors
    ensures (s[i].star + 1 - r[i].star) % NumStarColors == 0
    ensures r[i].(star := s[i].star) == s[i]
    ensures forall k :: 0 <= k < |s| && k != i ==> r[k] == s[k]
  {
    s[i := s[i].(star := (s[i].star + 1) % NumStarColors)]
  }

  /** Alt+S: advance the star, or do nothing for an index past the end. */
  function ToggleStarKb(s: seq<Task>, i: nat): (r: seq<Task>)
    ensures i >= |s| ==> r == s
    ensures i < |s| ==> r == ToggleStar(s, i)
  {
    if i < |s| then ToggleStar(s, i) else s
  }

  /** `n` presses of the star. */
  function ToggleStarTimes(s: seq<Task>, i: nat, n: nat): (r: seq<Task>)
    requires i < |s|
    ensures |r| == |s|
  {
    if n == 0 then s else ToggleStar(ToggleStarTimes(s, i, n - 1), i)
  }

  /** After `n` presses the star has advanced by `n`, modulo the palette size. */
  lemma {:induction false} ToggleStarTimesValue(s: seq<Task>, i: nat, n: nat)
    requires i < |s|
    requires 0 <= s[i].star < NumStarColors
    ensures ToggleStarTimes(s, i, n) == s[i := s[i].(star := (s[i].star + n) % NumStarColors)]
  {
    if n > 0 {
      ToggleStarTimesValue(s, i, n - 1);
    }
  }

  /** Cycling through all colours brings an in-range star back to where it started. */
  lemma ToggleStarCycle(s: seq<Task>, i: nat)
    requires i < |s|
    requires 0 <= s[i].star < NumStarColors
    ensures ToggleStarTimes(s, i, NumStarColors) == s
  {
    ToggleStarTimesValue(s, i, NumStarColors);
    var x := s[i].star;
    var m := NumStarColors;
    assert (x + m) % m == x by {
      assert 0 <= x < m;
      assert x + m == 1 * m + x;
    }
    assert s[i].(star := x) == s[i];
  }


  // ---------------------------------------------------------------------------------------
  // Insertion and text

  /** Shift+Enter on task `i`: a blank sibling (same depth) is inserted right after it and
      becomes the selection; every existing task keeps its order. */
  function InsertBelow(s: seq<Task>, i: nat): (r: Edit)
    requires i < |s|
    ensures |r.tasks| == |s| + 1
    ensures r.tasks[i + 1] == NewTask("", s[i].indent)
    ensures r.tasks[..i + 1] == s[..i + 1]
    ensures r.tasks[i + 2..] == s[i + 1..]
    ensures r.selected == Some(i + 1)
  {
    Edit(s[..i + 1] + [NewTask("", s[i].indent)] + s[i + 1..], Some(i + 1))
  }

  /** The new sibling ends the group of the task it was inserted under: that task's former
      children now follow the new task instead. */
  lemma InsertBelowEndsGroup(s: seq<Task>, i: nat)
    requires i < |s|
    ensures GroupEnd(InsertBelow(s, i).tasks, i) == i + 1
  {
    var t := InsertBelow(s, i).tasks;
    assert t[i] == s[i];
  }

  /** Committing text typed into the trailing placeholder row: the stripped text becomes a
      new top-level task at the end; all-whitespace input changes nothing. */
  function CommitPlaceholder(s: seq<Task>, typed: string): (r: seq<Task>)
    ensures Text.AllSpace(typed) ==> r == s
    ensures !Text.AllSpace(typed) ==> |r| == |s| + 1 && r[..|s|] == s
    ensures !Text.AllSpace(typed) ==> r[|s|] == NewTask(Text.Strip(typed), 0)
    ensures !Text.AllSpace(typed) ==> r[|s|].text != []
  {
    var text := Text.Strip(typed);
    if text != [] then s + [NewTask(text, 0)] else s
  }

  /** A keystroke in the entry of task `i`: the text is replaced unless the task is done
      (or the index is past the end), in which case nothing changes. */
  function UpdateText(s: seq<Task>, i: nat, text: string): (r: seq<Task>)
    ensures |r| == |s|
    ensures forall k :: 0 <= k < |s| && k != i ==> r[k] == s[k]
    ensures i < |s| && !s[i].done ==> r[i] == s[i].(text := text)
    ensures i < |s| && s[i].done ==> r[i] == s[i]
  {
    if i < |s| && !s[i].done then s[i := s[i].(text := text)] else s
  }

  /** Editing text twice keeps only the last edit. */
  lemma UpdateTextLastWins(s: seq<Task>, i: nat, a: string, b: string)
    ensures UpdateText(UpdateText(s, i, a), i, b) == UpdateText(s, i, b)
  {
  }

  // ---------------------------------------------------------------------------------------
  // Depth

  /** Shift+Right on task `i`: one level deeper, but only if `i` is not the first row and is
      not already deeper than its predecessor; otherwise nothing changes. The first row is
      never read, so it may be given on an empty list. */
  function Indent(s: seq<Task>, i: nat): (r: seq<Task>)
    requires i == 0 || i < |s|
    ensures |r| == |s|
    ensures r != s <==> i > 0 && s[i].indent <= s[i - 1].indent
    ensures r != s ==> r[i] == s[i].(indent := s[i].indent + 1)
    ensures r != s ==> r[i].indent <= r[i - 1].indent + 1
    ensures forall k :: 0 <= k < |s| && k != i ==> r[k] == s[k]
  {
    if i > 0 && s[i].indent <= s[i - 1].indent then
      s[i := s[i].(indent := s[i].indent + 1)]
    else
      s
  }

  /** Shift+Left on task `i`: one level shallower if it is deeper than the top level;
      otherwise nothing changes. */
  function Unindent(s: seq<Task>, i: nat): (r: seq<Task>)
    requires i < |s|
    ensures |r| == |s|
    ensures s[i].indent > 0 ==> r[i] == s[i].(indent := s[i].indent - 1)
    ensures s[i].indent <= 0 ==> r == s
    ensures forall k :: 0 <= k < |s| && k != i ==> r[k] == s[k]
    ensures NonNegIndents(s) ==> NonNegIndents(r)
  {
    if s[i].indent > 0 then s[i := s[i].(indent := s[i].indent - 1)] else s
  }

  /** Indenting keeps every depth within one level of its predecessor's. */
  lemma IndentKeepsBound(s: seq<Task>, i: nat)
    requires i == 0 || i < |s|
    requires IndentBounded(s)
    ensures IndentBounded(Indent(s, i))
  {
  }

  /** Indenting never makes a depth negative. */
  lemma IndentKeepsNonNeg(s: seq<Task>, i: nat)
    requires i == 0 || i < |s|
    requires NonNegIndents(s)
    ensures NonNegIndents(Indent(s, i))
  {
  }

  /** An indent that took effect is undone by an unindent at the same row. */
  lemma IndentThenUnindent(s: seq<Task>, i: nat)
    requires i < |s|
    requires Indent(s, i) != s
    requires s[i].indent >= 0
    ensures Unindent(Indent(s, i), i) == s
  {
  }

  /** Unindenting a middle task can leave its child two levels below it. */
  lemma UnindentCanBreakBound()
    ensures var s := [Task("A", false, 0, 0, None), Task("B", false, 0, 1, None),
                      Task("C", false, 0, 2, None)];
            IndentBounded(s) && !IndentBounded(Unindent(s, 1))
  {
    var s := [Task("A", false, 0, 0, None), Task("B", false, 0, 1, None),
              Task("C", false, 0, 2, None)];
    var r := Unindent(s, 1);
    assert r[2].indent > r[1].indent + 1;
  }

  // ---------------------------------------------------------------------------------------
  // Deletion

  /** The selection after a deletion leaves `n` tasks: kept while it still points at a task,
      otherwise pulled back to the last task, or cleared when none is left. */
  function ClampSelection(sel: Option<nat>, n: nat): (r: Option<nat>)
    ensures r.Some? ==> r.value < n
    ensures r.None? <==> sel.None? || n == 0
    ensures sel.Some? && sel.value < n ==> r == sel
    ensures sel.Some? && sel.value >= n && n > 0 ==> r == Some(n - 1)
  {
    if sel.Some? && sel.value >= n then (if n > 0 then Some(n - 1) else None) else sel
  }

  /** Ctrl+D on task `i`: exactly that task is removed (its children stay, with their own
      depths), and the selection is clamped to the shorter list. An index past the end
      changes nothing. */
  function Delete(s: seq<Task>, i: nat, sel: Option<nat>): (r: Edit)
    ensures i >= |s| ==> r == Edit(s, sel)
    ensures i < |s| ==> |r.tasks| == |s| - 1
    ensures i < |s| ==> forall k :: 0 <= k < |r.tasks| ==>
              r.tasks[k] == (if k < i then s[k] else s[k + 1])
    ensures i < |s| ==> multiset(r.tasks) + multiset{s[i]} == multiset(s)
    ensures i < |s| ==> r.selected == ClampSelection(sel, |s| - 1)
  {
    if i < |s| then
      var t := s[..i] + s[i + 1..];
      assert s == s[..i] + [s[i]] + s[i + 1..];
      Edit(t, ClampSelection(sel, |t|))
    else
      Edit(s, sel)
  }

  /** Deleting the task that was just inserted below `i` gives back the original list. */
  lemma DeleteUndoesInsert(s: seq<Task>, i: nat, sel: Option<nat>)
    requires i < |s|
    ensures Delete(InsertBelow(s, i).tasks, i + 1, sel).tasks == s
  {
    var t := InsertBelow(s, i).tasks;
    var d := Delete(t, i + 1, sel).tasks;
    assert forall k :: 0 <= k < |s| ==> d[k] == s[k] by {
      forall k | 0 <= k < |s| ensures d[k] == s[k] {
        if k <= i {
          assert t[..i + 1][k] == s[..i + 1][k];
        } else {
          assert t[i + 2..][k - i - 1] == s[i + 1..][k - i - 1];
        }
      }
    }
  }

  /** Deleting a parent leaves its child at the head of the list one level deep. */
  lemma DeleteCanBreakBound()
    ensures var s := [Task("P", false, 0, 0, None), Task("C", false, 0, 1, None)];
            IndentBounded(s) && !IndentBounded(Delete(s, 0, None).tasks)
  {
    var s := [Task("P", false, 0, 0, None), Task("C", false, 0, 1, None)];
    assert Delete(s, 0, None).tasks[0] == s[1];
  }

  // ---------------------------------------------------------------------------------------
  // Edits that keep the depth bound

  /** Completion, stars and text edits never touch a depth, so they keep the depth bound
      and non-negative depths. */
  lemma FieldEditsKeepBound(s: seq<Task>, i: nat, v: bool, text: string)
    requires i < |s|
    requires IndentBounded(s) && NonNegIndents(s)
    ensures IndentBounded(ToggleDone(s, i, v)) && NonNegIndents(ToggleDone(s, i, v))
    ensures IndentBounded(ToggleStar(s, i)) && NonNegIndents(ToggleStar(s, i))
    ensures IndentBounded(UpdateText(s, i, text)) && NonNegIndents(UpdateText(s, i, text))
  {
    ToggleDoneKeepsGroups(s, i, v, 0);
    SameShapeKeepsBound(ToggleDone(s, i, v), s);
    var st := ToggleStar(s, i);
    assert SameShape(st, s) by {
      assert forall k :: 0 <= k < |s| && k != i ==> st[k] == s[k];
      assert st[i].indent == s[i].indent by {
        assert st[i].(star := s[i].star) == s[i];
      }
    }
    SameShapeKeepsBound(st, s);
    var ut := UpdateText(s, i, text);
    assert SameShape(ut, s);
    SameShapeKeepsBound(ut, s);
  }

  /** The blank sibling takes its predecessor's depth, so insertion keeps the depth bound. */
  lemma InsertBelowKeepsBound(s: seq<Task>, i: nat)
    requires i < |s|
    requires IndentBounded(s) && NonNegIndents(s)
    ensures IndentBounded(InsertBelow(s, i).tasks) && NonNegIndents(InsertBelow(s, i).tasks)
  {
    var t := InsertBelow(s, i).tasks;
    forall k | 0 <= k < |t|
      ensures t[k] == (if k <= i then s[k] else if k == i + 1
        then NewTask("", s[i].indent) else s[k - 1])
    {
      if k <= i {
        assert t[..i + 1][k] == s[..i + 1][k];
      } else if k > i + 1 {
        assert t[i + 2..][k - i - 2] == s[i + 1..][k - i - 2];
      }
    }
  }

  /** A committed placeholder lands at the top level, so it keeps the depth bound. */
  lemma CommitPlaceholderKeepsBound(s: seq<Task>, typed: string)
    requires IndentBounded(s) && NonNegIndents(s)
    ensures IndentBounded(CommitPlaceholder(s, typed))
    ensures NonNegIndents(CommitPlaceholder(s, typed))
  {
    if Text.Strip(typed) != [] {
      AppendTopLevelKeepsBound(s, NewTask(Text.Strip(typed), 0));
    }
  }

  /** Appending a top-level task keeps the depth bound. */
  lemma AppendTopLevelKeepsBound(s: seq<Task>, t: Task)
    requires IndentBounded(s) && NonNegIndents(s) && t.indent == 0
    ensures IndentBounded(s + [t]) && NonNegIndents(s + [t])
  {
    var c := s + [t];
    assert forall k :: 0 <= k < |s| ==> c[k] == s[k];
  }

}

=== FILE: groups.dfy ===
/** Task groups: a task together with the contiguous run of strictly deeper tasks that
    follows it. Groups are never stored; they are recomputed from the indents. */
module Groups {
  import opened Tasks

  /** The first index at or after `j` whose task is no deeper than `depth`, or `|s|` if the
      rest of the sequence is deeper. */
  function ScanEnd(s: seq<Task>, depth: int, j: nat): (e: nat)
    requires j <= |s|
    ensures j <= e <= |s|
    ensures forall k :: j <= k < e ==> s[k].indent > depth
    ensures e == |s| || s[e].indent <= depth
    decreases |s| - j
  {
    if j == |s| || s[j].indent <= depth then j else ScanEnd(s, depth, j + 1)
  }

  /** The half-open range `[start, end)` of the group headed by task `i`. The range is never
      empty, every task strictly inside it is deeper than the head, and it stops at the end
      of the sequence or at the first task no deeper than the head. An index past the end
      yields the one-wide range `[i, i + 1)`. */
  function GroupExtent(s: seq<Task>, i: nat): (r: (nat, nat))
    ensures r.0 == i < r.1
    ensures i >= |s| ==> r.1 == i + 1
    ensures i < |s| ==> r.1 <= |s|
    ensures i < |s| ==> forall k :: i < k < r.1 ==> s[k].indent > s[i].indent
    ensures i < |s| ==> r.1 == |s| || s[r.1].indent <= s[i].indent
  {
    if i >= |s| then (i, i + 1) else (i, ScanEnd(s, s[i].indent, i + 1))
  }

  /** The end of the group headed by `i`. */
  function GroupEnd(s: seq<Task>, i: nat): nat {
    GroupExtent(s, i).1
  }

  /** `i` lies inside the group headed by `head`. */
  predicate InGroup(s: seq<Task>, head: nat, i: nat) {
    head <= i < GroupEnd(s, head)
  }

  /** The group scan as the controller runs it: walk forward from the head while the tasks
      are deeper, and stop at the first one that is not. */
  method GetTaskGroup(s: seq<Task>, i: nat) returns (start: nat, end: nat)
    ensures (start, end) == GroupExtent(s, i)
  {
    if i >= |s| {
      return i, i + 1;
    }
    var parent := s[i].indent;
    end := i + 1;
    while end < |s|
      invariant i < end <= |s|
      invariant forall k :: i < k < end ==> s[k].indent > parent
    {
      if s[end].indent > parent {
        end := end + 1;
      } else {
        break;
      }
    }
    start := i;
  }

  /** The scan reads nothing but the indents: two sequences of the same shape scan alike. */
  lemma {:induction false} ScanEndShape(a: seq<Task>, b: seq<Task>, depth: int, j: nat)
    requires SameShape(a, b) && j <= |a|
    ensures ScanEnd(a, depth, j) == ScanEnd(b, depth, j)
    decreases |a| - j
  {
    if j < |a| && a[j].indent > depth {
      ScanEndShape(a, b, depth, j + 1);
    }
  }

  /** Groups read nothing but the indents: two sequences of the same shape group alike. */
  lemma GroupExtentShape(a: seq<Task>, b: seq<Task>, i: nat)
    requires SameShape(a, b)
    ensures GroupExtent(a, i) == GroupExtent(b, i)
  {
    if i < |a| {
      ScanEndShape(a, b, a[i].indent, i + 1);
    }
  }

  /** The group end is pinned down by its two defining facts: a candidate end with a deeper
      run before it and a shallower task (or the end) at it is THE group end. */
  lemma GroupEndIs(s: seq<Task>, i: nat, e: nat)
    requires i < e <= |s|
    requires forall k :: i < k < e ==> s[k].indent > s[i].indent
    requires e == |s| || s[e].indent <= s[i].indent
    ensures GroupEnd(s, i) == e
  {
  }

  /** A deeper run after the head lies inside its group. */
  lemma GroupEndAtLeast(s: seq<Task>, i: nat, m: nat)
    requires i < m <= |s|
    requires forall k :: i < k < m ==> s[k].indent > s[i].indent
    ensures GroupEnd(s, i) >= m
  {
  }
}

=== FILE: keys.dfy ===
/** Two small keyboard state machines of the controller: the global Ctrl+K, Ctrl+K chord that
    shows or hides the window, and the layered Escape key. Time is in whole milliseconds. */
module Keys {

  /** The second Ctrl+K must come strictly less than this long after the first. */
  const ChordWindowMs: int := 1000

  /** One key press as the global hook reports it: the key name already lower-cased (`""`
      when the event has none), the modifier names it lists (empty when it lists none), and
      whether Ctrl is held according to the hook's own key-state query. */
  datatype KeyPress = KeyPress(name: string, modifiers: seq<string>, ctrlHeld: bool)

  /** A Ctrl key's own name. */
  predicate IsCtrlName(n: string) {
    n == "ctrl" || n == "left ctrl" || n == "right ctrl"
  }

  /** Names that leave a half-typed chord armed: the Ctrl keys under all their spellings and
      the nameless event. */
  predicate KeepsChord(n: string) {
    IsCtrlName(n) || n == "control_l" || n == "control_r" || n == ""
  }

  /** The press is Ctrl+K: the key is `k` and, when the event lists modifiers, one of them is
      a Ctrl key, or else Ctrl is held. */
  predicate IsCtrlK(e: KeyPress) {
    e.name == "k"
    && if |e.modifiers| > 0
       then "ctrl" in e.modifiers || "left ctrl" in e.modifiers || "right ctrl" in e.modifiers
       else e.ctrlHeld
  }

  /** Chord state: armed after a first Ctrl+K at time `since`. */
  datatype Chord = Chord(armed: bool, since: int)

  /** The idle chord at start-up. */
  const ChordIdle: Chord := Chord(false, 0)

  /** `_on_key_press`: a Ctrl+K that follows an armed Ctrl+K within the window fires (and
      disarms); any other Ctrl+K arms the chord at `now`; any key other than a Ctrl key (or a
      nameless event) disarms it. The second component says whether the window's visibility
      is toggled. */
  function OnKeyPress(c: Chord, e: KeyPress, now: int): (r: (Chord, bool))
    ensures r.1 <==> IsCtrlK(e) && c.armed && now - c.since < ChordWindowMs
    ensures r.1 ==> !r.0.armed
    ensures IsCtrlK(e) && !r.1 ==> r.0 == Chord(true, now)
    ensures !IsCtrlK(e) && !KeepsChord(e.name) ==> !r.0.armed
    ensures !IsCtrlK(e) && KeepsChord(e.name) ==> r.0 == c
  {
    if IsCtrlK(e) then
      if c.armed && now - c.since < ChordWindowMs then (c.(armed := false), true)
      else (Chord(true, now), false)
    else if !KeepsChord(e.name) then (c.(armed := false), false)
    else (c, false)
  }

  /** A first Ctrl+K that does not fire arms the chord, and then a second one fires exactly
      when it comes within the window, provided no other key comes between. */
  lemma ChordFiresOnSecondPress(c: Chord, e1: KeyPress, t1: int, e2: KeyPress, t2: int)
    requires IsCtrlK(e1) && IsCtrlK(e2)
    requires !OnKeyPress(c, e1, t1).1
    ensures OnKeyPress(OnKeyPress(c, e1, t1).0, e2, t2).1 <==> t2 - t1 < ChordWindowMs
  {
  }

  /** Any key other than Ctrl between the two presses breaks the chord. */
  lemma OtherKeyBreaksChord(c: Chord, e1: KeyPress, t1: int, x: KeyPress, tx: int, e2: KeyPress, t2: int)
    requires !IsCtrlK(x) && !KeepsChord(x.name)
    ensures var c1 := OnKeyPress(c, e1, t1).0;
            var c2 := OnKeyPress(c1, x, tx).0;
            !OnKeyPress(c2, e2, t2).1
  {
  }

  /** A press sequence with its timestamps. */
  datatype Timed = Timed(key: KeyPress, at: int)

  /** Feed the presses in order; the result is the final chord and how many times it fired. */
  function RunChord(c: Chord, es: seq<Timed>): (r: (Chord, nat))
    ensures r.1 <= |es|
    decreases |es|
  {
    if |es| == 0 then (c, 0)
    else
      var step := OnKeyPress(c, es[0].key, es[0].at);
      var rest := RunChord(step.0, es[1..]);
      (rest.0, rest.1 + (if step.1 then 1 else 0))
  }

  /** The number of Ctrl+K presses in a sequence. */
  function CountCtrlK(es: seq<Timed>): nat {
    if |es| == 0 then 0 else (if IsCtrlK(es[0].key) then 1 else 0) + CountCtrlK(es[1..])
  }

  /** Every firing consumes two Ctrl+K presses (one of them may be the press that armed the
      starting state): twice the firings, plus one if the chord ends armed, is at most the
      number of Ctrl+K presses plus one if it started armed. */
  lemma {:induction false} ChordFiringsNeedTwoPresses(c: Chord, es: seq<Timed>)
    ensures var r := RunChord(c, es);
            2 * r.1 + (if r.0.armed then 1 else 0) <= CountCtrlK(es) + (if c.armed then 1 else 0)
    decreases |es|
  {
    if |es| > 0 {
      ChordFiringsNeedTwoPresses(OnKeyPress(c, es[0].key, es[0].at).0, es[1..]);
    }
  }

  /** What the Escape key can change: the inline date picker, the view shown by the list, the
      view the title bar believes is shown, and the window's visibility. */
  datatype Screen = Screen(pickerOpen: bool, showCompleted: bool, barCompleted: bool, visible: bool)

  /** The list and the title bar agree on the view. */
  predicate InSync(s: Screen) {
    s.showCompleted == s.barCompleted
  }

  /** The view switch as written: the title bar flips its own flag and hands it to the list.
      It reads only the title bar's flag. The list is rebuilt for the new view, which closes
      an open date picker. */
  function ToggleViewAsWritten(s: Screen): (r: Screen)
    ensures r.barCompleted == !s.barCompleted && r.showCompleted == r.barCompleted
    ensures InSync(r)
    ensures !r.pickerOpen && r.visible == s.visible
  {
    s.(barCompleted := !s.barCompleted, showCompleted := !s.barCompleted, pickerOpen := false)
  }

  /** A fired reminder shows the window, forces the list back to the Active view without
      telling the title bar, and closes an open date picker (the list is rebuilt, and a
      rebuild dismisses the picker first). */
  function ReminderForcesActive(s: Screen): (r: Screen)
    ensures !r.showCompleted && r.barCompleted == s.barCompleted
    ensures r.visible && !r.pickerOpen
  {
    s.(showCompleted := false, pickerOpen := false, visible := true)
  }

  /** After a reminder fires in the Completed view, the next view switch leaves the list in
      the Active view: the switch does nothing visible, and the title bar shows the wrong
      view until then. */
  lemma ToggleAfterReminderIsNoOp()
    ensures var s := Screen(false, true, true, true);
            var fired := ReminderForcesActive(s);
            && !InSync(fired)
            && !ToggleViewAsWritten(fired).showCompleted
            && ToggleViewAsWritten(fired).showCompleted == fired.showCompleted
  {
  }

  /** The view switch as intended: flip the view the list shows and bring the title bar in
      line with it; the rebuild closes an open date picker, as in the written switch. */
  function ToggleView(s: Screen): (r: Screen)
    ensures r.showCompleted == !s.showCompleted
    ensures InSync(r)
    ensures !r.pickerOpen && r.visible == s.visible
  {
    s.(showCompleted := !s.showCompleted, barCompleted := !s.showCompleted, pickerOpen := false)
  }

  /** While list and title bar agree, the written switch is the intended one; they only
      disagree after a reminder has fired in the Completed view. */
  lemma ToggleViewAgreesInSync(s: Screen)
    requires InSync(s)
    ensures ToggleViewAsWritten(s) == ToggleView(s)
  {
  }

  /** The intended switch always changes the view, also right after a reminder. */
  lemma ToggleAfterReminderSwitches(s: Screen)
    ensures ToggleView(ReminderForcesActive(s)).showCompleted
  {
  }

  /** `_on_escape`: peel one layer per press. An open date picker is dismissed; otherwise the
      Completed view is left for the Active one; otherwise the window hides. Exactly one of
      the three changes. */
  function Escape(s: Screen): (r: Screen)
    ensures s.pickerOpen ==> r == s.(pickerOpen := false)
    ensures !s.pickerOpen && s.showCompleted ==>
              !r.showCompleted && InSync(r) && !r.pickerOpen && r.visible == s.visible
    ensures !s.pickerOpen && !s.showCompleted ==> r == s.(visible := false)
  {
    if s.pickerOpen then s.(pickerOpen := false)
    else if s.showCompleted then ToggleView(s)
    else s.(visible := false)
  }

  /** Three presses always reach the bottom layer: no picker, the Active view, and a hidden
      window; pressing again changes nothing. */
  lemma EscapeThriceHides(s: Screen)
    ensures var r := Escape(Escape(Escape(s)));
            !r.pickerOpen && !r.showCompleted && !r.visible
    ensures var r := Escape(Escape(Escape(s)));
            Escape(r) == r
  {
  }
}

=== FILE: moves.dfy ===
/** Grouped reordering (Shift+Up / Shift+Down): a task moves together with its group.
    Moving up hops over the single task just above the group; moving down swaps with the
    whole group just below. Both are disabled while the Completed view is shown. */
module Moves {
  import opened Tasks
  import opened Groups

  /** `a` is a reordering of `b`: the same elements, each as often. */
  predicate Permutation<T(==)>(a: seq<T>, b: seq<T>) {
    multiset(a) == multiset(b)
  }

  /** Two adjacent blocks `s[a..m]` and `s[m..b]` trade places. The position of each element
      is given by `SwapBlocksAt`; here: nothing is lost or duplicated. */
  function SwapBlocks<T>(s: seq<T>, a: nat, m: nat, b: nat): (r: seq<T>)
    requires a <= m <= b <= |s|
    ensures |r| == |s|
    ensures Permutation(r, s)
  {
    SwapBlocksPermutes(s, a, m, b);
    seq(|s|, k requires 0 <= k < |s| =>
      if k < a then s[k]
      else if k < a + (b - m) then s[k + (m - a)]
      else if k < b then s[k - (b - m)]
      else s[k])
  }

  /** Where every element of a block swap lands: the prefix before `a` and the suffix from
      `b` stay put, the lower block `s[m..b]` now starts at `a`, and the upper block
      `s[a..m]` follows it. */
  lemma SwapBlocksAt<T>(s: seq<T>, a: nat, m: nat, b: nat)
    requires a <= m <= b <= |s|
    ensures var r := SwapBlocks(s, a, m, b);
            && (forall k :: 0 <= k < a ==> r[k] == s[k])
            && (forall k :: a <= k < a + (b - m) ==> r[k] == s[k + (m - a)])
            && (forall k :: a + (b - m) <= k < b ==> r[k] == s[k - (b - m)])
            && (forall k :: b <= k < |s| ==> r[k] == s[k])
  {
  }

  /** Reordering the four pieces of a sequence keeps its multiset. */
  lemma SwapBlocksPermutes<T>(s: seq<T>, a: nat, m: nat, b: nat)
    requires a <= m <= b <= |s|
    ensures multiset(seq(|s|, k requires 0 <= k < |s| =>
              if k < a then s[k]
              else if k < a + (b - m) then s[k + (m - a)]
              else if k < b then s[k - (b - m)]
              else s[k])) == multiset(s)
  {
    var r := seq(|s|, k requires 0 <= k < |s| =>
              if k < a then s[k]
              else if k < a + (b - m) then s[k + (m - a)]
              else if k < b then s[k - (b - m)]
              else s[k]);
    assert s == s[..a] + s[a..m] + s[m..b] + s[b..];
    assert r == s[..a] + s[m..b] + s[a..m] + s[b..];
  }

  /** Swapping the two blocks back restores the sequence. */
  lemma SwapBlocksBack<T>(s: seq<T>, a: nat, m: nat, b: nat)
    requires a <= m <= b <= |s|
    ensures SwapBlocks(SwapBlocks(s, a, m, b), a, a + (b - m), b) == s
  {
    SwapBlocksBackAt(s, a, m, b, a + (b - m));
  }

  /** `SwapBlocksBack` stated position by position, for proofs that must not equate the two
      sequences outright; `m2` names the boundary of the swapped-back blocks. */
  lemma SwapBlocksBackAt<T>(s: seq<T>, a: nat, m: nat, b: nat, m2: nat)
    requires a <= m <= b <= |s| && m2 == a + (b - m)
    ensures forall k {:trigger SwapBlocks(SwapBlocks(s, a, m, b), a, m2, b)[k]} :: 0 <= k < |s| ==>
              SwapBlocks(SwapBlocks(s, a, m, b), a, m2, b)[k] == s[k]
  {
    var t := SwapBlocks(s, a, m, b);
    var u := SwapBlocks(t, a, m2, b);
    SwapBlocksAt(s, a, m, b);
    SwapBlocksAt(t, a, m2, b);
    forall k | 0 <= k < |s| ensures u[k] == s[k] {
      if a <= k < m {
        assert u[k] == t[k + (b - m)];
      } else if m <= k < b {
        assert u[k] == t[k - (m - a)];
      }
    }
  }

  /** Shift+Up on task `i`. The first row, and the Completed view, change nothing. An index
      past the end leaves the list as it is but still selects `i - 1`. Otherwise the list is
      reordered, the head lands on `i - 1` and the selection follows it there; where the
      other tasks go is `MoveUpSpec`. */
  function MoveUp(s: seq<Task>, i: nat, sel: Option<nat>, completedView: bool): (r: Edit)
    ensures completedView || i == 0 ==> r == Edit(s, sel)
    ensures !completedView && 0 < i && |s| <= i ==> r == Edit(s, Some(i - 1))
    ensures !completedView && 0 < i < |s| ==>
              && |r.tasks| == |s|
              && Permutation(r.tasks, s)
              && r.selected == Some(i - 1)
              && r.tasks[i - 1] == s[i]
  {
    if completedView || i == 0 then Edit(s, sel)
    else if i >= |s| then Edit(s, Some(i - 1))
    else
      SwapBlocksAt(s, i - 1, i, GroupEnd(s, i));
      Edit(SwapBlocks(s, i - 1, i, GroupEnd(s, i)), Some(i - 1))
  }

  /** Shift+Up in full: with `e` the end of `i`'s group, the block `s[i..e]` moves up one
      place as a whole and the single task `s[i - 1]` it hopped over lands at `e - 1`;
      everything before `i - 1` and from `e` on stays put. */
  lemma MoveUpSpec(s: seq<Task>, i: nat, sel: Option<nat>)
    requires 0 < i < |s|
    ensures var r := MoveUp(s, i, sel, false).tasks;
            var e := GroupEnd(s, i);
            && (forall k :: 0 <= k < i - 1 ==> r[k] == s[k])
            && (forall k :: i - 1 <= k < e - 1 ==> r[k] == s[k + 1])
            && r[e - 1] == s[i - 1]
            && (forall k :: e <= k < |s| ==> r[k] == s[k])
  {
    SwapBlocksAt(s, i - 1, i, GroupEnd(s, i));
  }

  /** Shift+Down on task `i`. A group that already reaches the end, and the Completed view,
      change nothing. Otherwise, with `[i, e)` its group and `[e, b)` the group right below
      it, the list is reordered, the head lands on `i + (b - e)` and the selection follows
      it there; where the other tasks go is `MoveDownSpec`. */
  function MoveDown(s: seq<Task>, i: nat, sel: Option<nat>, completedView: bool): (r: Edit)
    ensures completedView || GroupEnd(s, i) >= |s| ==> r == Edit(s, sel)
    ensures !completedView && GroupEnd(s, i) < |s| ==>
              var e := GroupEnd(s, i);
              var b := GroupEnd(s, e);
              && i < e < b <= |s|
              && |r.tasks| == |s|
              && Permutation(r.tasks, s)
              && r.selected == Some(i + (b - e))
              && r.tasks[i + (b - e)] == s[i]
  {
    var end := GroupEnd(s, i);
    if completedView || end >= |s| then Edit(s, sel)
    else
      var belowEnd := GroupEnd(s, end);
      SwapBlocksAt(s, i, end, belowEnd);
      Edit(SwapBlocks(s, i, end, belowEnd), Some(i + (belowEnd - end)))
  }

  /** Shift+Down in full: the whole group `[e, b)` below moves up to start at `i`, the moved
      group `[i, e)` follows it intact, and everything before `i` and from `b` on stays put. */
  lemma MoveDownSpec(s: seq<Task>, i: nat, sel: Option<nat>)
    requires GroupEnd(s, i) < |s|
    ensures var r := MoveDown(s, i, sel, false).tasks;
            var e := GroupEnd(s, i);
            var b := GroupEnd(s, e);
            && (forall k :: 0 <= k < i ==> r[k] == s[k])
            && (forall k :: i <= k < i + (b - e) ==> r[k] == s[k + (e - i)])
            && (forall k :: i + (b - e) <= k < b ==> r[k] == s[k - (b - e)])
            && (forall k :: b <= k < |s| ==> r[k] == s[k])
  {
    SwapBlocksAt(s, i, GroupEnd(s, i), GroupEnd(s, GroupEnd(s, i)));
  }

  /** The moved head keeps its children: after moving up, the group headed at the new
      position still covers every task that moved with it. */
  lemma MoveUpKeepsGroup(s: seq<Task>, i: nat)
    requires 0 < i < |s|
    ensures GroupEnd(MoveUp(s, i, None, false).tasks, i - 1) >= GroupEnd(s, i) - 1
  {
    var e := GroupEnd(s, i);
    var t := SwapBlocks(s, i - 1, i, e);
    SwapBlocksAt(s, i - 1, i, e);
    forall k | i - 1 < k < e - 1 ensures t[k].indent > t[i - 1].indent {
      assert t[k] == s[k + 1];
    }
    GroupEndAtLeast(t, i - 1, e - 1);
  }

  /** Moving up and then down again restores the list when the task hopped over is no
      deeper than the moved head and the task after the group is no deeper than the hopped
      one; the selection comes back to the head. */
  lemma MoveUpThenDown(s: seq<Task>, i: nat, sel: Option<nat>)
    requires 0 < i < |s|
    requires s[i - 1].indent <= s[i].indent
    requires GroupEnd(s, i) == |s| || s[GroupEnd(s, i)].indent <= s[i - 1].indent
    ensures var u := MoveUp(s, i, sel, false);
            MoveDown(u.tasks, i - 1, u.selected, false) == Edit(s, Some(i))
  {
    MoveDownAfterUp(s, i);
  }

  /** The second half of `MoveUpThenDown`, on the swapped list itself. */
  lemma MoveDownAfterUp(s: seq<Task>, i: nat)
    requires 0 < i < |s|
    requires s[i - 1].indent <= s[i].indent
    requires GroupEnd(s, i) == |s| || s[GroupEnd(s, i)].indent <= s[i - 1].indent
    ensures MoveDown(SwapBlocks(s, i - 1, i, GroupEnd(s, i)), i - 1, Some(i - 1), false)
            == Edit(s, Some(i))
  {
    MoveUpGroupEnds(s, i);
    MoveDownUndoesSwap(s, i, GroupEnd(s, i));
  }

  /** Once the swapped list is known to group as `[i - 1, e - 1)` and `[e - 1, e)`, moving
      its head down swaps the two blocks back. */
  lemma MoveDownUndoesSwap(s: seq<Task>, i: nat, e: nat)
    requires 0 < i < |s| && e == GroupEnd(s, i)
    requires var t := SwapBlocks(s, i - 1, i, e);
             GroupEnd(t, i - 1) == e - 1 && GroupEnd(t, e - 1) == e
    ensures MoveDown(SwapBlocks(s, i - 1, i, e), i - 1, Some(i - 1), false) == Edit(s, Some(i))
  {
    var t := SwapBlocks(s, i - 1, i, e);
    MoveDownIsSwap(t, i - 1, e - 1, e, Some(i - 1));
    SwapBlocksBackAt(s, i - 1, i, e, e - 1);
    assert (i - 1) + (e - (e - 1)) == i;
  }

  /** After a move up that the premises of `MoveUpThenDown` allow, the moved group ends one
      place earlier and the hopped task forms a group of its own. */
  lemma MoveUpGroupEnds(s: seq<Task>, i: nat)
    requires 0 < i < |s|
    requires s[i - 1].indent <= s[i].indent
    requires GroupEnd(s, i) == |s| || s[GroupEnd(s, i)].indent <= s[i - 1].indent
    ensures var e := GroupEnd(s, i);
            var t := SwapBlocks(s, i - 1, i, e);
            GroupEnd(t, i - 1) == e - 1 && GroupEnd(t, e - 1) == e
  {
    var e := GroupEnd(s, i);
    var t := SwapBlocks(s, i - 1, i, e);
    SwapBlocksAt(s, i - 1, i, e);
    forall k | i - 1 < k < e - 1 ensures t[k].indent > t[i - 1].indent {
      assert t[k] == s[k + 1];
    }
    GroupEndIs(t, i - 1, e - 1);
    GroupEndIs(t, e - 1, e);
  }

  /** Moving down, once the two group ends are known, is exactly the block swap. */
  lemma MoveDownIsSwap(s: seq<Task>, i: nat, e: nat, b: nat, sel: Option<nat>)
    requires e == GroupEnd(s, i) < |s| && b == GroupEnd(s, e)
    ensures MoveDown(s, i, sel, false) == Edit(SwapBlocks(s, i, e, b), Some(i + (b - e)))
  {
  }

  /** Moving up, once the group end is known, is exactly the block swap. */
  lemma MoveUpIsSwap(s: seq<Task>, i: nat, e: nat, sel: Option<nat>)
    requires 0 < i < |s| && e == GroupEnd(s, i)
    ensures MoveUp(s, i, sel, false) == Edit(SwapBlocks(s, i - 1, i, e), Some(i - 1))
  {
  }

  /** Moving down past a single task and then up again restores the list when the task
      after the swapped pair is no deeper than the moved head. */
  lemma MoveDownThenUp(s: seq<Task>, i: nat, sel: Option<nat>)
    requires GroupEnd(s, i) < |s|
    requires GroupEnd(s, GroupEnd(s, i)) == GroupEnd(s, i) + 1
    requires GroupEnd(s, i) + 1 == |s| || s[GroupEnd(s, i) + 1].indent <= s[i].indent
    ensures var d := MoveDown(s, i, sel, false);
            MoveUp(d.tasks, i + 1, d.selected, false) == Edit(s, Some(i))
  {
    var e := GroupEnd(s, i);
    MoveDownIsSwap(s, i, e, e + 1, sel);
    MoveDownGroupEnd(s, i);
    MoveUpUndoesSwap(s, i, e);
  }

  /** Once the swapped list is known to group its moved head as `[i + 1, e + 1)`, moving
      that head up swaps the two blocks back. */
  lemma MoveUpUndoesSwap(s: seq<Task>, i: nat, e: nat)
    requires e == GroupEnd(s, i) < |s|
    requires GroupEnd(SwapBlocks(s, i, e, e + 1), i + 1) == e + 1
    ensures MoveUp(SwapBlocks(s, i, e, e + 1), i + 1, Some(i + 1), false) == Edit(s, Some(i))
  {
    var t := SwapBlocks(s, i, e, e + 1);
    MoveUpIsSwap(t, i + 1, e + 1, Some(i + 1));
    SwapBlocksBackAt(s, i, e, e + 1, i + 1);
  }

  /** After a move down past a single task that the premises of `MoveDownThenUp` allow, the
      moved group ends where it ended before. */
  lemma MoveDownGroupEnd(s: seq<Task>, i: nat)
    requires GroupEnd(s, i) < |s|
    requires GroupEnd(s, GroupEnd(s, i)) == GroupEnd(s, i) + 1
    requires GroupEnd(s, i) + 1 == |s| || s[GroupEnd(s, i) + 1].indent <= s[i].indent
    ensures var e := GroupEnd(s, i);
            GroupEnd(SwapBlocks(s, i, e, e + 1), i + 1) == e + 1
  {
    var e := GroupEnd(s, i);
    var t := SwapBlocks(s, i, e, e + 1);
    SwapBlocksAt(s, i, e, e + 1);
    forall k | i + 1 < k < e + 1 ensures t[k].indent > t[i + 1].indent {
      assert t[k] == s[k - 1];
    }
    GroupEndIs(t, i + 1, e + 1);
  }

  /** The hop is asymmetric: moving `G` up over `X` and back down does not restore
      `[X0, G1, R1]`, because on the way down `X` takes `R` along as its child. */
  lemma MoveUpThenDownAsymmetric()
    ensures var s := [Task("X", false, 0, 0, None), Task("G", false, 0, 1, None),
                      Task("R", false, 0, 1, None)];
            var u := MoveUp(s, 1, None, false);
            MoveDown(u.tasks, 0, u.selected, false).tasks != s
  {
    var s := [Task("X", false, 0, 0, None), Task("G", false, 0, 1, None),
              Task("R", false, 0, 1, None)];
    GroupEndIs(s, 1, 2);
    var t := MoveUp(s, 1, None, false).tasks;
    assert t[0] == s[1] && t[1] == s[0] && t[2] == s[2];
    GroupEndIs(t, 0, 1);
    GroupEndIs(t, 1, 3);
    var d := MoveDown(t, 0, Some(0), false).tasks;
    assert d[1] == t[2];
  }

  /** A parent with two children moves below the next top-level task as one block. */
  lemma MoveDownExample()
    ensures var s := [Task("A", false, 0, 0, None), Task("B", false, 0, 1, None),
                      Task("C", false, 0, 1, None), Task("D", false, 0, 0, None)];
            MoveDown(s, 0, Some(0), false) == Edit([s[3], s[0], s[1], s[2]], Some(1))
  {
    var s := [Task("A", false, 0, 0, None), Task("B", false, 0, 1, None),
              Task("C", false, 0, 1, None), Task("D", false, 0, 0, None)];
    GroupEndIs(s, 0, 3);
    GroupEndIs(s, 3, 4);
    var r := MoveDown(s, 0, Some(0), false);
    assert r.tasks[0] == s[3] && r.tasks[1] == s[0] && r.tasks[2] == s[1] && r.tasks[3] == s[2];
    assert r.tasks == [s[3], s[0], s[1], s[2]];
  }

  /** Moving a grandchild up over its parent can leave it two levels below its new
      predecessor. */
  lemma MoveUpCanBreakBound()
    ensures var s := [Task("A", false, 0, 0, None), Task("B", false, 0, 1, None),
                      Task("C", false, 0, 2, None)];
            IndentBounded(s) && !IndentBounded(MoveUp(s, 2, None, false).tasks)
  {
    var s := [Task("A", false, 0, 0, None), Task("B", false, 0, 1, None),
              Task("C", false, 0, 2, None)];
    GroupEndIs(s, 2, 3);
    var t := MoveUp(s, 2, None, false).tasks;
    assert t[0] == s[0] && t[1] == s[2];
  }

  /** Moving a deep task down past a top-level one can leave it two levels below its new
      predecessor. */
  lemma MoveDownCanBreakBound()
    ensures var s := [Task("A", false, 0, 0, None), Task("B", false, 0, 1, None),
                      Task("H", false, 0, 2, None), Task("Y", false, 0, 0, None)];
            IndentBounded(s) && !IndentBounded(MoveDown(s, 2, None, false).tasks)
  {
    var s := [Task("A", false, 0, 0, None), Task("B", false, 0, 1, None),
              Task("H", false, 0, 2, None), Task("Y", false, 0, 0, None)];
    GroupEndIs(s, 2, 3);
    GroupEndIs(s, 3, 4);
    var t := MoveDown(s, 2, None, false).tasks;
    assert t[2] == s[3] && t[3] == s[2];
  }
}

=== FILE: reminders.dfy ===
/** The periodic reminder sweep. Each sweep fires at most one reminder: the first task, in
    storage order, that is not done and whose reminder time has passed. Firing clears that
    reminder, switches to the Active view and selects the task so that its row can be
    flashed. Timestamps are parsed by a supplied ISO-8601 parser and compared with the local
    wall clock `now` on one integer time scale. */
module Reminders {
  import opened Tasks
  import View
  import Keys

  /** The part of the controller's state the sweep reads and writes. */
  datatype Panel = Panel(tasks: seq<Task>, selected: Option<nat>, showCompleted: bool)

  /** Task `t` is due at wall time `now`. Only a pending task with a reminder is considered;
      a reminder that does not parse, or that carries a UTC offset (an offset-aware time
      cannot be compared with the naive local clock), raises inside the sweep and is skipped,
      so only a naive time at or before `now` fires. */
  predicate Due(t: Task, now: int, parse: string -> Parsed) {
    HasReminder(t) && !t.done
    && parse(t.reminder.value).Naive? && parse(t.reminder.value).wall <= now
  }

  /** The first due task at or after `from`. */
  function FirstDue(s: seq<Task>, now: int, parse: string -> Parsed, from: nat): (r: Option<nat>)
    requires from <= |s|
    ensures r.Some? ==> from <= r.value < |s| && Due(s[r.value], now, parse)
    ensures forall j :: from <= j < (if r.Some? then r.value else |s|) ==> !Due(s[j], now, parse)
    decreases |s| - from
  {
    if from == |s| then None
    else if Due(s[from], now, parse) then Some(from)
    else FirstDue(s, now, parse, from + 1)
  }

  /** Task `t` with its reminder cleared. */
  function Cleared(t: Task): (c: Task)
    ensures !HasReminder(c)
    ensures c.text == t.text && c.done == t.done && c.star == t.star && c.indent == t.indent
  {
    t.(reminder := None)
  }

  /** One sweep. When the controller has stopped nothing happens; otherwise the first due
      task fires: its reminder is cleared, the Completed view is left, and the task becomes
      the selection. The second component names the task that fired. */
  function Sweep(p: Panel, running: bool, now: int, parse: string -> Parsed): (r: (Panel, Option<nat>))
    ensures r.1.None? ==> r.0 == p
    ensures r.1.None? && running ==> forall j :: 0 <= j < |p.tasks| ==> !Due(p.tasks[j], now, parse)
    ensures r.1.Some? ==>
              && running
              && r.1.value < |p.tasks|
              && Due(p.tasks[r.1.value], now, parse)
              && (forall j :: 0 <= j < r.1.value ==> !Due(p.tasks[j], now, parse))
              && r.0.tasks == p.tasks[r.1.value := Cleared(p.tasks[r.1.value])]
              && r.0.selected == Some(r.1.value)
              && !r.0.showCompleted
    ensures !running ==> r == (p, None)
  {
    if !running then (p, None)
    else
      match FirstDue(p.tasks, now, parse, 0)
      case None => (p, None)
      case Some(i) =>
        (Panel(p.tasks[i := Cleared(p.tasks[i])], Some(i), false), Some(i))
  }

  /** The sweep loop as the controller runs it: walk the tasks in order, skip those that are
      not due, and on the first due one clear it, switch view, select it and stop. */
  method CheckReminders(p: Panel, running: bool, now: int, parse: string -> Parsed)
    returns (q: Panel, fired: Option<nat>)
    ensures (q, fired) == Sweep(p, running, now, parse)
  {
    q, fired := p, None;
    if !running {
      return;
    }
    var i := 0;
    while i < |p.tasks|
      invariant i <= |p.tasks|
      invariant forall j :: 0 <= j < i ==> !Due(p.tasks[j], now, parse)
    {
      var t := p.tasks[i];
      if t.reminder.Some? && t.reminder.value != [] && !t.done {
        var dt := parse(t.reminder.value);
        if dt.Naive? && dt.wall <= now {
          q := Panel(p.tasks[i := Cleared(t)], Some(i), false);
          fired := Some(i);
          FirstDueIs(p.tasks, now, parse, 0, i);
          return;
        }
      }
      i := i + 1;
    }
    FirstDueNone(p.tasks, now, parse, 0);
  }

  /** The scan finds `i` when `i` is due and nothing before it (from `from` on) is. */
  lemma {:induction false} FirstDueIs(s: seq<Task>, now: int, parse: string -> Parsed, from: nat, i: nat)
    requires from <= i < |s| && Due(s[i], now, parse)
    requires forall j :: from <= j < i ==> !Due(s[j], now, parse)
    ensures FirstDue(s, now, parse, from) == Some(i)
    decreases i - from
  {
    if from < i {
      FirstDueIs(s, now, parse, from + 1, i);
    }
  }

  /** The scan finds nothing when nothing from `from` on is due. */
  lemma {:induction false} FirstDueNone(s: seq<Task>, now: int, parse: string -> Parsed, from: nat)
    requires from <= |s|
    requires forall j :: from <= j < |s| ==> !Due(s[j], now, parse)
    ensures FirstDue(s, now, parse, from).None?
    decreases |s| - from
  {
    if from < |s| {
      FirstDueNone(s, now, parse, from + 1);
    }
  }

  /** A sweep changes nothing but the reminder of the task it fires: the hierarchy, and with
      it every invariant on indents, is untouched. */
  lemma SweepKeepsShape(p: Panel, running: bool, now: int, parse: string -> Parsed)
    ensures SameShape(Sweep(p, running, now, parse).0.tasks, p.tasks)
    ensures IndentBounded(p.tasks) ==> IndentBounded(Sweep(p, running, now, parse).0.tasks)
    ensures forall j :: 0 <= j < |p.tasks| && Some(j) != Sweep(p, running, now, parse).1 ==>
              Sweep(p, running, now, parse).0.tasks[j] == p.tasks[j]
  {
    var r := Sweep(p, running, now, parse);
    if r.1.Some? {
      var t := r.0.tasks;
      assert forall k :: 0 <= k < |t| ==> t[k].indent == p.tasks[k].indent;
    }
  }

  /** A fired reminder does not fire again: a later sweep, at any time, never fires the same
      task, and a sweep at the same time fires a task strictly after it, or none. */
  lemma SweepAgainFiresLater(p: Panel, now: int, later: int, parse: string -> Parsed)
    ensures var (q, first) := Sweep(p, true, now, parse);
            first.Some? ==> Sweep(q, true, later, parse).1 != first
    ensures var (q, first) := Sweep(p, true, now, parse);
            var (_, second) := Sweep(q, true, now, parse);
            first.Some? && second.Some? ==> first.value < second.value
  {
    var (q, first) := Sweep(p, true, now, parse);
    if first.Some? {
      var i := first.value;
      assert !Due(q.tasks[i], later, parse);
      assert !Due(q.tasks[i], now, parse);
      assert forall j :: 0 <= j < i ==> q.tasks[j] == p.tasks[j];
    }
  }

  /** Reminders that are offset-aware or unparseable never fire and are never cleared, at
      any time. */
  lemma SweepSkipsUncomparable(p: Panel, running: bool, now: int, parse: string -> Parsed, k: nat)
    requires k < |p.tasks| && HasReminder(p.tasks[k])
    requires !parse(p.tasks[k].reminder.value).Naive?
    ensures Sweep(p, running, now, parse).1 != Some(k)
    ensures Sweep(p, running, now, parse).0.tasks[k] == p.tasks[k]
  {
    SweepKeepsShape(p, running, now, parse);
  }

  /** The number of due tasks among the first `n`. */
  function CountDue(s: seq<Task>, now: int, parse: string -> Parsed, n: nat): nat
    requires n <= |s|
  {
    if n == 0 then 0
    else CountDue(s, now, parse, n - 1) + (if Due(s[n - 1], now, parse) then 1 else 0)
  }

  /** Clearing the reminder of a due task lowers the due count by one. */
  lemma {:induction false} CountDueClear(s: seq<Task>, now: int, parse: string -> Parsed, i: nat, n: nat)
    requires i < |s| && Due(s[i], now, parse) && n <= |s|
    ensures CountDue(s[i := Cleared(s[i])], now, parse, n)
            == CountDue(s, now, parse, n) - (if i < n then 1 else 0)
  {
    if n > 0 {
      CountDueClear(s, now, parse, i, n - 1);
    }
  }

  /** Every firing sweep retires exactly one due reminder, so with the clock held still the
      sweeps stop firing after as many rounds as there were due tasks. */
  lemma SweepRetiresOne(p: Panel, now: int, parse: string -> Parsed)
    ensures var (q, fired) := Sweep(p, true, now, parse);
            fired.Some? ==> CountDue(q.tasks, now, parse, |q.tasks|)
                            == CountDue(p.tasks, now, parse, |p.tasks|) - 1
    ensures Sweep(p, true, now, parse).1.None? <==> CountDue(p.tasks, now, parse, |p.tasks|) == 0
  {
    var (q, fired) := Sweep(p, true, now, parse);
    if fired.Some? {
      CountDueClear(p.tasks, now, parse, fired.value, |p.tasks|);
      CountDuePositive(p.tasks, now, parse, fired.value, |p.tasks|);
    } else {
      CountDueZero(p.tasks, now, parse, |p.tasks|);
    }
  }

  /** A due task among the first `n` makes the count positive. */
  lemma {:induction false} CountDuePositive(s: seq<Task>, now: int, parse: string -> Parsed, i: nat, n: nat)
    requires i < n <= |s| && Due(s[i], now, parse)
    ensures CountDue(s, now, parse, n) > 0
  {
    if i < n - 1 {
      CountDuePositive(s, now, parse, i, n - 1);
    }
  }

  /** With nothing due, the count is zero. */
  lemma {:induction false} CountDueZero(s: seq<Task>, now: int, parse: string -> Parsed, n: nat)
    requires n <= |s|
    requires forall j :: 0 <= j < n ==> !Due(s[j], now, parse)
    ensures CountDue(s, now, parse, n) == 0
  {
    if n > 0 {
      CountDueZero(s, now, parse, n - 1);
    }
  }

  /** After a sweep fires, the rebuilt listing shows the fired task, so the delayed flash
      finds its row. */
  lemma SweepFiredRowIsShown(p: Panel, now: int, parse: string -> Parsed)
    ensures var (q, fired) := Sweep(p, true, now, parse);
            fired.Some? ==> View.FindRow(View.Rebuild(q.tasks, q.selected, q.showCompleted), fired.value).Some?
  {
    var (q, fired) := Sweep(p, true, now, parse);
    if fired.Some? {
      View.FindRowIsDisplayPos(q.tasks, q.selected, q.showCompleted, fired.value);
    }
  }

  /** On the controller's screen a firing sweep is `Keys.ReminderForcesActive`: the list's
      view flag afterwards is the one it leaves, the title bar's flag is not written, the
      window is shown and the date picker is closed. */
  lemma SweepIsReminderForcesActive(p: Panel, now: int, parse: string -> Parsed, sc: Keys.Screen)
    requires sc.showCompleted == p.showCompleted
    ensures var (q, fired) := Sweep(p, true, now, parse);
            var after := if fired.Some? then Keys.ReminderForcesActive(sc) else sc;
            && after.showCompleted == q.showCompleted
            && after.barCompleted == sc.barCompleted
            && (fired.Some? ==> after.visible && !after.pickerOpen)
  {
  }
}

=== FILE: sync.dfy ===
/** The mapping from a local task to the JSON body of a Microsoft To Do task (Graph API), and
    the choice of the signed-in account. The remote list is flat: the hierarchy is not sent.

    A Graph `dateTimeTimeZone` value is modelled by the wall-clock second its `dateTime`
    string prints (the format `%Y-%m-%dT%H:%M:%S` is one-to-one on seconds) and its
    `timeZone` tag. Times count from an epoch that falls on a midnight. */
module Sync {
  import opened Tasks
  import Text

  const MicrosPerSecond: nat := 1_000_000
  const SecondsPerDay: nat := 86_400

  /** The title sent for a task whose text is blank. */
  const Untitled: string := "(untitled)"
  const StatusCompleted: string := "completed"
  const StatusNotStarted: string := "notStarted"
  const ImportanceHigh: string := "high"
  const Utc: string := "UTC"

  /** An outcome that may be an exception instead of a value. */
  datatype Result<+T> = Success(value: T) | Failure(error: string)

  /** A Graph `dateTimeTimeZone`: the printed wall-clock second and the zone it is in. */
  datatype GraphTime = GraphTime(second: int, timeZone: string)

  /** The body of a created Graph task. Optional keys are `Option`s: `None` when the key is
      absent from the JSON object. */
  datatype Payload = Payload(
    title: string,
    status: string,
    importance: Option<string>,
    dueDateTime: Option<GraphTime>,
    reminderDateTime: Option<GraphTime>,
    isReminderOn: Option<bool>,
    completedDateTime: Option<GraphTime>)

  /** The error `fromisoformat` raises on a string that is not an ISO date. */
  const InvalidIso: string := "Invalid isoformat string"

  /** `_to_graph_date`: the calendar day as written, at midnight, labelled UTC. An aware time
      is not converted first, so the day is the one in its own zone. */
  function ToGraphDate(iso: string, parse: string -> Parsed): (r: Result<GraphTime>)
    ensures r.Failure? <==> parse(iso).Unparseable?
    ensures r.Success? ==> r.value.timeZone == Utc
  {
    match parse(iso)
    case Unparseable => Failure(InvalidIso)
    case Naive(w) => Success(GraphTime(w / MicrosPerSecond / SecondsPerDay * SecondsPerDay, Utc))
    case Aware(w, _) => Success(GraphTime(w / MicrosPerSecond / SecondsPerDay * SecondsPerDay, Utc))
  }

  /** `_to_graph_datetime` as written: the instant in UTC with microseconds dropped. An
      aware time is shifted by its offset; a naive time is labelled UTC without shifting. */
  function ToGraphDateTimeAsWritten(iso: string, parse: string -> Parsed): (r: Result<GraphTime>)
    ensures r.Failure? <==> parse(iso).Unparseable?
    ensures r.Success? ==> r.value.timeZone == Utc
    ensures parse(iso).Naive? ==> r.value.second == parse(iso).wall / MicrosPerSecond
    ensures parse(iso).Aware? ==> r.value.second == (parse(iso).wall - parse(iso).offset) / MicrosPerSecond
  {
    match parse(iso)
    case Unparseable => Failure(InvalidIso)
    case Naive(w) => Success(GraphTime(w / MicrosPerSecond, Utc))
    case Aware(w, off) => Success(GraphTime((w - off) / MicrosPerSecond, Utc))
  }

  /** The reminder time as intended: the instant in UTC with microseconds dropped, where a
      naive time is a local wall-clock time (which is how reminders are stored and how the
      sweep reads them) and is shifted by the local zone's offset at that time. */
  function ToGraphDateTime(iso: string, parse: string -> Parsed, localOffset: int -> int): (r: Result<GraphTime>)
    ensures r.Failure? <==> parse(iso).Unparseable?
    ensures r.Success? ==> r.value.timeZone == Utc
  {
    match parse(iso)
    case Unparseable => Failure(InvalidIso)
    case Naive(w) => Success(GraphTime((w - localOffset(w)) / MicrosPerSecond, Utc))
    case Aware(w, off) => Success(GraphTime((w - off) / MicrosPerSecond, Utc))
  }

  /** `_now_graph_datetime`: the current UTC instant (microseconds), seconds only. */
  function NowGraphDateTime(nowUtc: int): (r: GraphTime)
    ensures r.timeZone == Utc
    ensures r.second * MicrosPerSecond <= nowUtc < (r.second + 1) * MicrosPerSecond
  {
    GraphTime(nowUtc / MicrosPerSecond, Utc)
  }

  /** The due day is a midnight, and the day that contains the written time (to the
      second). */
  lemma GraphDateIsWrittenDay(iso: string, parse: string -> Parsed)
    ensures var r := ToGraphDate(iso, parse);
            r.Success? ==>
              var s := parse(iso).wall / MicrosPerSecond;
              r.value.second % SecondsPerDay == 0
              && r.value.second <= s < r.value.second + SecondsPerDay
  {
    var r := ToGraphDate(iso, parse);
    if r.Success? {
      var s := parse(iso).wall / MicrosPerSecond;
      DayFloor(s);
    }
  }

  /** Rounding down to a whole day. */
  lemma DayFloor(s: int)
    ensures var d := s / SecondsPerDay * SecondsPerDay;
            d % SecondsPerDay == 0 && d <= s < d + SecondsPerDay
  {
  }

  /** The reminder time is the reminder's instant in UTC, truncated to the second. */
  lemma GraphDateTimeIsUtcSecond(iso: string, parse: string -> Parsed, localOffset: int -> int)
    ensures var r := ToGraphDateTime(iso, parse, localOffset);
            r.Success? ==>
              var p := parse(iso);
              var utc := if p.Aware? then p.wall - p.offset else p.wall - localOffset(p.wall);
              r.value.second * MicrosPerSecond <= utc < (r.value.second + 1) * MicrosPerSecond
  {
  }

  /** A naive local time is sent as the same instant as its spelling with the local offset
      written out. */
  lemma NaiveIsLocalTime(iso: string, iso2: string, parse: string -> Parsed, localOffset: int -> int)
    requires parse(iso).Naive?
    requires parse(iso2) == Aware(parse(iso).wall, localOffset(parse(iso).wall))
    ensures ToGraphDateTime(iso, parse, localOffset) == ToGraphDateTime(iso2, parse, localOffset)
    ensures ToGraphDate(iso, parse) == ToGraphDate(iso2, parse)
  {
  }

  /** The written conversion agrees with the intended one on aware times, and on naive times
      where the local zone is UTC itself. */
  lemma AsWrittenAgreesAtUtc(iso: string, parse: string -> Parsed, localOffset: int -> int)
    requires parse(iso).Naive? ==> localOffset(parse(iso).wall) == 0
    ensures ToGraphDateTimeAsWritten(iso, parse) == ToGraphDateTime(iso, parse, localOffset)
  {
  }

  /** At UTC+2, a reminder stored as 09:00 local time is sent as 09:00 UTC, which is 11:00
      local time: two hours late. The intended conversion sends 07:00 UTC. */
  lemma NaiveReminderSentUnshifted()
    ensures var parse: string -> Parsed := _ => Naive(9 * 3600 * MicrosPerSecond);
            var plusTwo: int -> int := _ => 2 * 3600 * MicrosPerSecond;
            && ToGraphDateTimeAsWritten("2024-01-01T09:00:00", parse) == Success(GraphTime(9 * 3600, Utc))
            && ToGraphDateTime("2024-01-01T09:00:00", parse, plusTwo) == Success(GraphTime(7 * 3600, Utc))
  {
  }

  /** The time-dependent inputs of the mapping: the ISO-8601 parser and the current UTC
      instant (microseconds). */
  datatype Env = Env(parse: string -> Parsed, nowUtc: int)

  /** `_task_payload`. The title is the stripped text, or a fixed placeholder when that is
      empty; the status follows `done`; importance is sent only for a starred task; a truthy
      reminder adds the due day, the reminder time and the reminder switch together; a done
      task carries the current time as its completion time. A reminder that does not parse
      makes the whole mapping raise. The reminder time goes through the conversion as
      written, so a naive (local) reminder is sent unshifted. */
  function TaskPayload(t: Task, env: Env): (r: Result<Payload>)
    ensures r.Failure? <==> HasReminder(t) && env.parse(t.reminder.value).Unparseable?
    ensures r.Success? && HasReminder(t) ==>
              && r.value.dueDateTime == Some(ToGraphDate(t.reminder.value, env.parse).value)
              && r.value.reminderDateTime == Some(ToGraphDateTimeAsWritten(t.reminder.value, env.parse).value)
    ensures r.Success? && t.done ==> r.value.completedDateTime == Some(NowGraphDateTime(env.nowUtc))
  {
    var stripped := Text.Strip(t.text);
    var title := if stripped == [] then Untitled else stripped;
    var status := if t.done then StatusCompleted else StatusNotStarted;
    var importance := if t.star > 0 then Some(ImportanceHigh) else None;
    var completed := if t.done then Some(NowGraphDateTime(env.nowUtc)) else None;
    if HasReminder(t) then
      match (ToGraphDate(t.reminder.value, env.parse),
             ToGraphDateTimeAsWritten(t.reminder.value, env.parse))
      case (Success(due), Success(at)) =>
        Success(Payload(title, status, importance, Some(due), Some(at), Some(true), completed))
      case (Failure(e), _) => Failure(e)
      case (_, Failure(e)) => Failure(e)
    else
      Success(Payload(title, status, importance, None, None, None, completed))
  }

  /** What the mapped body says about the task: a non-empty title that is the stripped text
      unless that is blank; a status that is "completed" exactly for a done task; importance
      exactly for a starred one; the three reminder keys together exactly for a truthy
      reminder; a completion time exactly for a done task. */
  lemma TaskPayloadFields(t: Task, env: Env)
    ensures var r := TaskPayload(t, env);
            r.Success? ==>
              var p := r.value;
              && p.title != []
              && (Text.Strip(t.text) != [] ==> p.title == Text.Strip(t.text))
              && (Text.AllSpace(t.text) ==> p.title == Untitled)
              && (p.status == StatusCompleted <==> t.done)
              && (p.status == StatusNotStarted <==> !t.done)
              && (p.importance.Some? <==> t.star > 0)
              && (p.importance.Some? ==> p.importance.value == ImportanceHigh)
              && (p.dueDateTime.Some? <==> HasReminder(t))
              && (p.reminderDateTime.Some? <==> HasReminder(t))
              && (p.isReminderOn == if HasReminder(t) then Some(true) else None)
              && (p.completedDateTime.Some? <==> t.done)
  {
  }

  /** The payload does not read the depth: tasks that differ only in indent map to the same
      body, so the remote list is the flattened hierarchy. */
  lemma PayloadIgnoresIndent(t: Task, depth: int, env: Env)
    ensures TaskPayload(t.(indent := depth), env) == TaskPayload(t, env)
  {
  }

  /** For a stored (naive, local) reminder the due day is the day written, and the reminder
      time is the written wall-clock second labelled UTC, whatever the local zone. */
  lemma PayloadNaiveReminder(t: Task, env: Env)
    requires HasReminder(t) && env.parse(t.reminder.value).Naive?
    ensures var r := TaskPayload(t, env);
            var w := env.parse(t.reminder.value).wall;
            && r.Success?
            && r.value.reminderDateTime.Some?
            && r.value.reminderDateTime.value.timeZone == Utc
            && r.value.reminderDateTime.value.second * MicrosPerSecond <= w
            && w < (r.value.reminderDateTime.value.second + 1) * MicrosPerSecond
            && r.value.dueDateTime.value.second <= w / MicrosPerSecond < r.value.dueDateTime.value.second + SecondsPerDay
  {
    var r := TaskPayload(t, env);
    var at := ToGraphDateTimeAsWritten(t.reminder.value, env.parse);
    assert r.value.reminderDateTime == Some(at.value);
    GraphDateIsWrittenDay(t.reminder.value, env.parse);
  }

  /** The body as intended: the same as `TaskPayload` except that the reminder time is the
      reminder's UTC instant, a naive reminder being read in the local zone whose offset at a
      given wall time is `localOffset`. */
  function IntendedTaskPayload(t: Task, env: Env, localOffset: int -> int): (r: Result<Payload>)
    ensures r.Failure? <==> TaskPayload(t, env).Failure?
    ensures r.Success? ==>
              && r.value.(reminderDateTime := TaskPayload(t, env).value.reminderDateTime) == TaskPayload(t, env).value
              && (r.value.reminderDateTime.Some? <==> HasReminder(t))
              && (HasReminder(t) ==> Success(r.value.reminderDateTime.value)
                                     == ToGraphDateTime(t.reminder.value, env.parse, localOffset))
  {
    match TaskPayload(t, env)
    case Failure(e) => Failure(e)
    case Success(p) =>
      if HasReminder(t) then
        Success(p.(reminderDateTime := Some(ToGraphDateTime(t.reminder.value, env.parse, localOffset).value)))
      else Success(p)
  }

  /** Under the intended mapping a stored reminder is sent as its UTC instant to the second:
      09:00 local at UTC+2 goes out as 07:00 UTC. Where the local zone is UTC the two
      mappings send the same body. */
  lemma IntendedPayloadNaiveReminder(t: Task, env: Env, localOffset: int -> int)
    requires HasReminder(t) && env.parse(t.reminder.value).Naive?
    ensures var r := IntendedTaskPayload(t, env, localOffset);
            var w := env.parse(t.reminder.value).wall;
            var utc := w - localOffset(w);
            && r.Success?
            && r.value.reminderDateTime.Some?
            && r.value.reminderDateTime.value.second * MicrosPerSecond <= utc
            && utc < (r.value.reminderDateTime.value.second + 1) * MicrosPerSecond
    ensures localOffset(env.parse(t.reminder.value).wall) == 0 ==>
              IntendedTaskPayload(t, env, localOffset) == TaskPayload(t, env)
  {
    GraphDateTimeIsUtcSecond(t.reminder.value, env.parse, localOffset);
    if localOffset(env.parse(t.reminder.value).wall) == 0 {
      AsWrittenAgreesAtUtc(t.reminder.value, env.parse, localOffset);
    }
  }

  /** Map `f` over the first `n` elements in order, stopping at the first one on which it
      raises; the flag says whether that happened. */
  function MapUntilFailure<A, B>(xs: seq<A>, f: A -> Result<B>, n: nat): (r: (seq<B>, bool))
    requires n <= |xs|
    ensures |r.0| <= n
    ensures forall k :: 0 <= k < |r.0| ==> f(xs[k]) == Success(r.0[k])
    ensures !r.1 <==> |r.0| == n
    ensures r.1 ==> f(xs[|r.0|]).Failure?
  {
    if n == 0 then ([], false)
    else
      var prev := MapUntilFailure(xs, f, n - 1);
      if prev.1 then prev
      else
        match f(xs[n - 1])
        case Failure(_) => prev.(1 := true)
        case Success(y) => (prev.0 + [y], false)
  }

  /** The bodies `push_tasks` creates, in list order, after clearing the remote list. A task
      whose mapping raises ends the push there, with the earlier tasks already created; the
      flag says whether that happened. */
  function PushPayloads(tasks: seq<Task>, env: Env): (r: (seq<Payload>, bool))
    ensures |r.0| <= |tasks|
    ensures forall k :: 0 <= k < |r.0| ==> TaskPayload(tasks[k], env) == Success(r.0[k])
    ensures !r.1 <==> |r.0| == |tasks|
    ensures r.1 ==> TaskPayload(tasks[|r.0|], env).Failure?
  {
    MapUntilFailure(tasks, t => TaskPayload(t, env), |tasks|)
  }

  /** With every mapping before `k` succeeding and `k` either the end of the list or an
      element whose mapping raises, exactly the first `k` results come out, and the map
      reports a failure exactly when it stopped short. */
  lemma {:induction false} MapStopsAtFirstFailure<A, B>(xs: seq<A>, f: A -> Result<B>, n: nat, k: nat)
    requires k <= n <= |xs|
    requires forall j :: 0 <= j < k ==> f(xs[j]).Success?
    requires k < n ==> f(xs[k]).Failure?
    ensures |MapUntilFailure(xs, f, n).0| == k
    ensures MapUntilFailure(xs, f, n).1 <==> k < n
  {
    if n > 0 && n - 1 >= k {
      MapStopsAtFirstFailure(xs, f, n - 1, k);
    } else if n > 0 {
      MapStopsAtFirstFailure(xs, f, n - 1, n - 1);
    }
  }

  /** A push whose first unparseable reminder is at task `k` creates exactly the first `k`
      bodies and then raises; a push with none creates one body per task. */
  lemma PushStopsAtFirstBadReminder(tasks: seq<Task>, env: Env, k: nat)
    requires k <= |tasks|
    requires forall j :: 0 <= j < k ==>
               !(HasReminder(tasks[j]) && env.parse(tasks[j].reminder.value).Unparseable?)
    requires k < |tasks| ==> HasReminder(tasks[k]) && env.parse(tasks[k].reminder.value).Unparseable?
    ensures |PushPayloads(tasks, env).0| == k
    ensures PushPayloads(tasks, env).1 <==> k < |tasks|
  {
    MapStopsAtFirstFailure(tasks, t => TaskPayload(t, env), |tasks|, k);
  }

  /** A signed-in account as the token cache lists it. */
  datatype Account = Account(homeAccountId: Option<string>, username: Option<string>)

  /** Python truthiness of an optional string: present and non-empty. */
  predicate Truthy(x: Option<string>) {
    x.Some? && x.value != ""
  }

  /** The first account at or after `from` whose home account id is `id`. */
  function FirstByHomeId(accounts: seq<Account>, id: string, from: nat): (r: Option<nat>)
    requires from <= |accounts|
    ensures r.Some? ==> from <= r.value < |accounts| && accounts[r.value].homeAccountId == Some(id)
    ensures forall j :: from <= j < (if r.Some? then r.value else |accounts|) ==>
              accounts[j].homeAccountId != Some(id)
    decreases |accounts| - from
  {
    if from == |accounts| then None
    else if accounts[from].homeAccountId == Some(id) then Some(from)
    else FirstByHomeId(accounts, id, from + 1)
  }

  /** The first account at or after `from` whose username is `name`. */
  function FirstByUsername(accounts: seq<Account>, name: string, from: nat): (r: Option<nat>)
    requires from <= |accounts|
    ensures r.Some? ==> from <= r.value < |accounts| && accounts[r.value].username == Some(name)
    ensures forall j :: from <= j < (if r.Some? then r.value else |accounts|) ==>
              accounts[j].username != Some(name)
    decreases |accounts| - from
  {
    if from == |accounts| then None
    else if accounts[from].username == Some(name) then Some(from)
    else FirstByUsername(accounts, name, from + 1)
  }

  /** `_select_account`, returning the position of the chosen account: the first whose home
      account id matches a given (truthy) id; failing that, the first whose username matches
      a given (truthy) preferred username; failing that, the first account; and nothing when
      there are no accounts. */
  function SelectAccount(accounts: seq<Account>, accountId: Option<string>, preferred: Option<string>): (r: Option<nat>)
    ensures r.None? <==> accounts == []
    ensures r.Some? ==> r.value < |accounts|
    ensures Truthy(accountId) && (exists j :: 0 <= j < |accounts| && accounts[j].homeAccountId == accountId)
            ==> r.Some? && accounts[r.value].homeAccountId == accountId
                && forall j :: 0 <= j < r.value ==> accounts[j].homeAccountId != accountId
    ensures r.Some? && r.value > 0 ==>
              (Truthy(accountId) && accounts[r.value].homeAccountId == accountId)
              || (Truthy(preferred) && accounts[r.value].username == preferred)
  {
    var byId := if Truthy(accountId) then FirstByHomeId(accounts, accountId.value, 0) else None;
    if byId.Some? then byId
    else
      var byName := if Truthy(preferred) then FirstByUsername(accounts, preferred.value, 0) else None;
      if byName.Some? then byName
      else if accounts != [] then Some(0)
      else None
  }

  /** Precedence: with no id match, the first username match is chosen; with neither, the
      first account. */
  lemma SelectAccountFallsBack(accounts: seq<Account>, accountId: Option<string>, preferred: Option<string>)
    requires !Truthy(accountId) || forall j :: 0 <= j < |accounts| ==> accounts[j].homeAccountId != accountId
    ensures var r := SelectAccount(accounts, accountId, preferred);
            Truthy(preferred) && (exists j :: 0 <= j < |accounts| && accounts[j].username == preferred)
            ==> r.Some? && accounts[r.value].username == preferred
                && forall j :: 0 <= j < r.value ==> accounts[j].username != preferred
    ensures var r := SelectAccount(accounts, accountId, preferred);
            (!Truthy(preferred) || forall j :: 0 <= j < |accounts| ==> accounts[j].username != preferred)
            ==> r == (if accounts == [] then None else Some(0))
  {
    if Truthy(accountId) {
      assert FirstByHomeId(accounts, accountId.value, 0).None?;
    }
  }
}

=== FILE: tasks.dfy ===
/** The task record and the facts about task sequences that every other module shares.

    A task list is a flat, ordered `seq<Task>`; the hierarchy is implied by `indent` alone
    (a task's group is itself plus the contiguous run of strictly deeper tasks after it).
 */
module Tasks {

  /** A value that may be absent: a task's reminder, or the controller's selection. */
  datatype Option<+T> = None | Some(value: T)

  /** One to-do entry. A missing key of the persisted record is taken at its default
      (`""`, `false`, `0`, `0`, null), so every field is always present here. */
  datatype Task = Task(
    text: string,
    done: bool,
    star: int,
    indent: int,
    reminder: Option<string>)

  /** The star palette: index 0 is the unlit grey, 1 to 6 are the lit colours. */
  const StarColors: seq<string> :=
    ["#888888", "#FFD700", "#FF4444", "#44FF44", "#4488FF", "#FF44FF", "#FF8800"]

  /** The number of star states a task cycles through. */
  const NumStarColors: nat := |StarColors|

  /** A freshly created task with the given text at the given depth: not done, unstarred,
      no reminder. */
  function NewTask(text: string, indent: int): Task {
    Task(text, false, 0, indent, None)
  }

  /** A task sequence together with the controller's selected storage index. */
  datatype Edit = Edit(tasks: seq<Task>, selected: Option<nat>)

  /** The reminder is truthy in the Python sense: present and not the empty string. */
  predicate HasReminder(t: Task) {
    t.reminder.Some? && t.reminder.value != ""
  }

  /** No task is deeper than one level below its immediate predecessor, and the first task
      is at the top level or above (it may only be as deep as a virtual predecessor at -1
      allows, which is exactly what indenting can reach, since row 0 cannot be indented). */
  predicate IndentBounded(s: seq<Task>) {
    && (|s| > 0 ==> s[0].indent <= 0)
    && forall k :: 0 < k < |s| ==> s[k].indent <= s[k - 1].indent + 1
  }

  /** Every depth is a valid nesting level. */
  predicate NonNegIndents(s: seq<Task>) {
    forall k :: 0 <= k < |s| ==> s[k].indent >= 0
  }

  /** Two sequences that carry the same indents position by position. */
  predicate SameShape(a: seq<Task>, b: seq<Task>) {
    |a| == |b| && forall k :: 0 <= k < |a| ==> a[k].indent == b[k].indent
  }

  /** The depth invariants depend only on the indents. */
  lemma SameShapeKeepsBound(a: seq<Task>, b: seq<Task>)
    requires SameShape(a, b)
    ensures IndentBounded(a) <==> IndentBounded(b)
    ensures NonNegIndents(a) <==> NonNegIndents(b)
  {
  }

  /** The result of parsing a stored ISO-8601 reminder (Python's `fromisoformat`).
      Times are whole microseconds of the written wall-clock value counted from a fixed
      epoch; an aware value also carries its UTC offset in microseconds. */
  datatype Parsed = Unparseable | Naive(wall: int) | Aware(wall: int, offset: int)
}

=== FILE: text.dfy ===
/** Python's `str.strip()` with no argument: drop leading and trailing whitespace. */
module Text {

  /** Python's `str.isspace` on one character: the ASCII controls TAB to CR, the four
      information separators, SPACE, NEL, NO-BREAK SPACE and the Unicode space separators. */
  predicate IsSpace(c: char) {
    var n := c as int;
    (9 <= n <= 13) || (28 <= n <= 32) || n == 0x85 || n == 0xA0 || n == 0x1680
    || (0x2000 <= n <= 0x200A) || n == 0x2028 || n == 0x2029 || n == 0x202F
    || n == 0x205F || n == 0x3000
  }

  /** Every character of `s` is whitespace (vacuously so for the empty string). */
  predicate AllSpace(s: string) {
    forall k :: 0 <= k < |s| ==> IsSpace(s[k])
  }

  /** The end of the whitespace run that starts at `j`. */
  function SpaceRunEnd(s: string, j: nat): (n: nat)
    requires j <= |s|
    ensures j <= n <= |s|
    ensures forall k :: j <= k < n ==> IsSpace(s[k])
    ensures n == |s| || !IsSpace(s[n])
    decreases |s| - j
  {
    if j == |s| || !IsSpace(s[j]) then j else SpaceRunEnd(s, j + 1)
  }

  /** The start of the whitespace run that ends at `j`, looking no further back than `lo`. */
  function SpaceRunStart(s: string, lo: nat, j: nat): (n: nat)
    requires lo <= j <= |s|
    ensures lo <= n <= j
    ensures forall k :: n <= k < j ==> IsSpace(s[k])
    ensures n == lo || !IsSpace(s[n - 1])
    decreases j
  {
    if j == lo || !IsSpace(s[j - 1]) then j else SpaceRunStart(s, lo, j - 1)
  }

  /** Where the stripped text starts: the length of the leading whitespace. */
  function StripStart(s: string): nat {
    SpaceRunEnd(s, 0)
  }

  /** `str.strip()`: the piece of `s` left after removing whitespace at both ends. It is
      empty exactly when `s` is all whitespace, and otherwise starts and ends on a
      non-space; it sits at `StripStart(s)`, and everything around it is whitespace. */
  function Strip(s: string): (r: string)
    ensures |r| <= |s|
    ensures r == [] <==> AllSpace(s)
    ensures r != [] ==> !IsSpace(r[0]) && !IsSpace(r[|r| - 1])
    ensures StripStart(s) + |r| <= |s| && r == s[StripStart(s)..StripStart(s) + |r|]
    ensures AllSpace(s[..StripStart(s)]) && AllSpace(s[StripStart(s) + |r|..])
  {
    var a := SpaceRunEnd(s, 0);
    var b := SpaceRunStart(s, a, |s|);
    assert a < |s| ==> a < b;
    s[a..b]
  }

  /** Stripping is idempotent: a stripped string has nothing left to strip. */
  lemma StripIdempotent(s: string)
    ensures Strip(Strip(s)) == Strip(s)
  {
    var r := Strip(s);
    assert SpaceRunEnd(r, 0) == 0;
    assert SpaceRunStart(r, 0, |r|) == |r|;
  }

  /** Whitespace inside the text survives; only the two ends are trimmed. */
  lemma StripExample()
    ensures Strip("\t a b\n") == "a b"
  {
    var s := "\t a b\n";
    assert SpaceRunEnd(s, 0) == 2;
    assert SpaceRunStart(s, 2, |s|) == 5;
    assert s[2..5] == "a b";
  }
}

=== FILE: view.dfy ===
/** The on-screen projection of the task list. Only one kind of task is shown at a time:
    the Active view shows the tasks that are not done (plus an entry row for a new task at
    the bottom), the Completed view shows the done tasks, read-only. `indexMap` maps a display
    position to the storage index of the task shown there. */
module View {
  import opened Tasks

  /** One row of the list: a task's row, or the placeholder entry row for a new task. */
  datatype Row =
    | TaskRowView(index: nat, selected: bool, readonly: bool)
    | Placeholder

  /** What `rebuild` leaves behind: the rows top to bottom and the display-to-storage map. */
  datatype Listing = Listing(rows: seq<Row>, indexMap: seq<nat>)

  /** Whether task `k` belongs in the view (`showCompleted` selects the Completed view). */
  predicate Shown(tasks: seq<Task>, k: nat, showCompleted: bool)
    requires k < |tasks|
  {
    tasks[k].done == showCompleted
  }

  /** `m` lists positions in strictly increasing order. */
  predicate Increasing(m: seq<nat>) {
    forall a, b :: 0 <= a < b < |m| ==> m[a] < m[b]
  }

  /** The display map over the first `n` tasks: exactly the shown ones, in storage order. */
  function IndexMapUpTo(tasks: seq<Task>, showCompleted: bool, n: nat): (m: seq<nat>)
    requires n <= |tasks|
    ensures Increasing(m)
    ensures forall d :: 0 <= d < |m| ==> m[d] < n && Shown(tasks, m[d], showCompleted)
    ensures forall k :: 0 <= k < n && Shown(tasks, k, showCompleted) ==> k in m
  {
    if n == 0 then []
    else
      var p := IndexMapUpTo(tasks, showCompleted, n - 1);
      if Shown(tasks, n - 1, showCompleted) then p + [n - 1] else p
  }

  /** The display map of the whole list. */
  function IndexMap(tasks: seq<Task>, showCompleted: bool): seq<nat> {
    IndexMapUpTo(tasks, showCompleted, |tasks|)
  }

  /** The filter loop of `rebuild`: walk the tasks in order, skip the ones the view hides and
      append the storage index of every other one. */
  method BuildIndexMap(tasks: seq<Task>, showCompleted: bool) returns (m: seq<nat>)
    ensures m == IndexMap(tasks, showCompleted)
  {
    m := [];
    var i := 0;
    while i < |tasks|
      invariant i <= |tasks|
      invariant m == IndexMapUpTo(tasks, showCompleted, i)
    {
      var isDone := tasks[i].done;
      if showCompleted && !isDone {
      } else if !showCompleted && isDone {
      } else {
        m := m + [i];
      }
      i := i + 1;
    }
  }

  /** The two views split the list: their sizes add up to the length of the list. */
  lemma {:induction false} ViewsPartition(tasks: seq<Task>, n: nat)
    requires n <= |tasks|
    ensures |IndexMapUpTo(tasks, false, n)| + |IndexMapUpTo(tasks, true, n)| == n
  {
    if n > 0 {
      ViewsPartition(tasks, n - 1);
    }
  }

  /** Every task is listed by exactly one of the two views. */
  lemma ViewsDisjoint(tasks: seq<Task>, k: nat)
    requires k < |tasks|
    ensures k in IndexMap(tasks, false) <==> k !in IndexMap(tasks, true)
  {
    if tasks[k].done {
      assert k in IndexMap(tasks, true);
    } else {
      assert k in IndexMap(tasks, false);
    }
  }

  /** In an increasing map nothing lies strictly between two neighbours. */
  lemma BetweenNeighboursNotMapped(m: seq<nat>, p: nat, x: nat)
    requires Increasing(m) && p + 1 < |m|
    ensures m[p] < x < m[p + 1] ==> x !in m
  {
  }

  /** In an increasing map nothing lies beyond the last entry. */
  lemma AfterLastNotMapped(m: seq<nat>, x: nat)
    requires Increasing(m) && |m| > 0
    ensures x > m[|m| - 1] ==> x !in m
  {
  }

  /** In an increasing map nothing lies below the first entry. */
  lemma BeforeFirstNotMapped(m: seq<nat>, x: nat)
    requires Increasing(m) && |m| > 0
    ensures x < m[0] ==> x !in m
  {
  }

  /** The first position at or after `from` where `m` holds `x`. */
  function FirstIndexOf(m: seq<nat>, x: nat, from: nat): (r: Option<nat>)
    requires from <= |m|
    ensures r.Some? ==> from <= r.value < |m| && m[r.value] == x
    ensures r.Some? ==> forall d :: from <= d < r.value ==> m[d] != x
    ensures r.None? ==> forall d :: from <= d < |m| ==> m[d] != x
    decreases |m| - from
  {
    if from == |m| then None
    else if m[from] == x then Some(from)
    else FirstIndexOf(m, x, from + 1)
  }

  /** The display position of storage index `k`, if it is shown. */
  function DisplayPos(m: seq<nat>, k: nat): (r: Option<nat>)
    ensures r.Some? <==> k in m
    ensures r.Some? ==> r.value < |m| && m[r.value] == k
  {
    FirstIndexOf(m, k, 0)
  }

  /** `rebuild`: one row per shown task in storage order, highlighted when it is the selected
      task and read-only in the Completed view, followed in the Active view by the entry
      row. */
  function Rebuild(tasks: seq<Task>, selected: Option<nat>, showCompleted: bool): (l: Listing)
    ensures l.indexMap == IndexMap(tasks, showCompleted)
    ensures |l.rows| == |l.indexMap| + (if showCompleted then 0 else 1)
    ensures forall d :: 0 <= d < |l.indexMap| ==>
              l.rows[d] == TaskRowView(l.indexMap[d], selected == Some(l.indexMap[d]), showCompleted)
    ensures !showCompleted ==> l.rows[|l.indexMap|] == Placeholder
  {
    var m := IndexMap(tasks, showCompleted);
    var taskRows := seq(|m|, d requires 0 <= d < |m| =>
                      TaskRowView(m[d], selected == Some(m[d]), showCompleted));
    Listing(taskRows + (if showCompleted then [] else [Placeholder]), m)
  }

  /** Every task of the shown kind gets exactly one row, and no other task gets one. */
  lemma RebuildShowsEachOnce(tasks: seq<Task>, selected: Option<nat>, showCompleted: bool, k: nat)
    requires k < |tasks|
    ensures var l := Rebuild(tasks, selected, showCompleted);
            (exists d :: 0 <= d < |l.indexMap| && l.rows[d].index == k)
            <==> Shown(tasks, k, showCompleted)
    ensures var l := Rebuild(tasks, selected, showCompleted);
            forall d1, d2 :: 0 <= d1 < d2 < |l.indexMap| ==> l.rows[d1].index != l.rows[d2].index
  {
    var l := Rebuild(tasks, selected, showCompleted);
    if Shown(tasks, k, showCompleted) {
      var d := DisplayPos(l.indexMap, k).value;
      assert l.rows[d].index == k;
    }
  }

  /** At most one row is highlighted, and one is exactly when the selection is a task of the
      shown kind. */
  lemma RebuildHighlightsSelection(tasks: seq<Task>, selected: Option<nat>, showCompleted: bool)
    ensures var l := Rebuild(tasks, selected, showCompleted);
            forall d1, d2 ::
              (0 <= d1 < d2 < |l.rows| && l.rows[d1].TaskRowView? && l.rows[d2].TaskRowView?)
              ==> !(l.rows[d1].selected && l.rows[d2].selected)
    ensures var l := Rebuild(tasks, selected, showCompleted);
            (exists d :: 0 <= d < |l.rows| && l.rows[d].TaskRowView? && l.rows[d].selected)
            <==> (selected.Some? && selected.value < |tasks|
                  && Shown(tasks, selected.value, showCompleted))
  {
    var l := Rebuild(tasks, selected, showCompleted);
    assert forall d :: |l.indexMap| <= d < |l.rows| ==> l.rows[d] == Placeholder;
    if selected.Some? && selected.value < |tasks| && Shown(tasks, selected.value, showCompleted) {
      var d := DisplayPos(l.indexMap, selected.value).value;
      assert l.rows[d].TaskRowView? && l.rows[d].selected;
    }
  }

  /** `update_selection`: re-highlight the task rows for a new selection, reading each row's
      storage index through the display map. */
  function UpdateSelection(l: Listing, selected: Option<nat>): (r: Listing)
    ensures r.indexMap == l.indexMap && |r.rows| == |l.rows|
    ensures forall d :: 0 <= d < |l.rows| && l.rows[d].Placeholder? ==> r.rows[d] == Placeholder
    ensures forall d :: 0 <= d < |l.rows| && l.rows[d].TaskRowView? ==>
              r.rows[d] == l.rows[d].(selected := d < |l.indexMap| && selected == Some(l.indexMap[d]))
  {
    var rows := seq(|l.rows|, d requires 0 <= d < |l.rows| =>
                  match l.rows[d]
                  case Placeholder => Placeholder
                  case TaskRowView(k, _, ro) =>
                    TaskRowView(k, d < |l.indexMap| && selected == Some(l.indexMap[d]), ro));
    Listing(rows, l.indexMap)
  }

  /** Re-highlighting a fresh listing gives the listing that a rebuild with the new selection
      would have produced, as far as which row is highlighted. Colours are not modelled: in
      the Completed view a re-highlight paints unselected rows in the default background
      where a rebuild paints them in the completed background, so the two do not paint the
      same there. */
  lemma UpdateSelectionAgreesWithRebuild(tasks: seq<Task>, s1: Option<nat>, s2: Option<nat>,
                                         showCompleted: bool)
    ensures UpdateSelection(Rebuild(tasks, s1, showCompleted), s2) == Rebuild(tasks, s2, showCompleted)
  {
    var a := UpdateSelection(Rebuild(tasks, s1, showCompleted), s2);
    var b := Rebuild(tasks, s2, showCompleted);
    assert |a.rows| == |b.rows|;
    forall d | 0 <= d < |a.rows| ensures a.rows[d] == b.rows[d] {
    }
  }

  /** The row lookup of `focus_row` and `flash_row`: the first task row, at or after `from`,
      whose display position maps to storage index `k`. */
  function FindRowFrom(l: Listing, k: nat, from: nat): (r: Option<nat>)
    requires from <= |l.rows|
    ensures r.Some? ==> (from <= r.value < |l.rows| && r.value < |l.indexMap|
                         && l.rows[r.value].TaskRowView? && l.indexMap[r.value] == k)
    ensures forall d :: from <= d < (if r.Some? then r.value else |l.rows|) ==>
              !(l.rows[d].TaskRowView? && d < |l.indexMap| && l.indexMap[d] == k)
    decreases |l.rows| - from
  {
    if from == |l.rows| then None
    else if l.rows[from].TaskRowView? && from < |l.indexMap| && l.indexMap[from] == k then Some(from)
    else FindRowFrom(l, k, from + 1)
  }

  /** The row that `focus_row(k)` and `flash_row(k)` act on, if any. */
  function FindRow(l: Listing, k: nat): Option<nat> {
    FindRowFrom(l, k, 0)
  }

  /** On a rebuilt listing the row lookup lands on the task's display position, and finds
      nothing for a task the view filters out (focus and flash then do nothing). */
  lemma FindRowIsDisplayPos(tasks: seq<Task>, selected: Option<nat>, showCompleted: bool, k: nat)
    ensures var l := Rebuild(tasks, selected, showCompleted);
            FindRow(l, k) == DisplayPos(l.indexMap, k)
    ensures FindRow(Rebuild(tasks, selected, showCompleted), k).Some?
            <==> k < |tasks| && Shown(tasks, k, showCompleted)
  {
    var l := Rebuild(tasks, selected, showCompleted);
    var f := FindRow(l, k);
    var p := DisplayPos(l.indexMap, k);
    if p.Some? {
      assert l.rows[p.value].TaskRowView?;
    }
    if f.Some? && p.Some? {
      assert f.value <= p.value && p.value <= f.value;
    }
  }

  /** Where keyboard navigation sends the focus. */
  datatype Nav = Stay | SelectTask(index: nat) | FocusPlaceholder

  /** Up arrow on the row of storage index `k`: select and focus the task shown just above,
      if there is one. */
  function NavUp(m: seq<nat>, k: nat): (r: Nav)
    ensures r.SelectTask? ==> exists p :: 0 < p < |m| && m[p] == k && r.index == m[p - 1]
    ensures r.Stay? <==> (k !in m || (|m| > 0 && m[0] == k))
    ensures !r.FocusPlaceholder?
  {
    var pos := DisplayPos(m, k);
    if pos.Some? && pos.value > 0 then SelectTask(m[pos.value - 1]) else Stay
  }

  /** Down arrow on the row of storage index `k`: select and focus the task shown just below;
      from the last task, focus the entry row if the listing ends with one and the Active
      view is on. */
  function NavDown(l: Listing, k: nat, showCompleted: bool): (r: Nav)
    ensures r.SelectTask? ==> exists p :: 0 <= p < |l.indexMap| - 1 && l.indexMap[p] == k
                                         && r.index == l.indexMap[p + 1]
    ensures r.FocusPlaceholder? <==>
              (!showCompleted && |l.indexMap| > 0 && l.indexMap[|l.indexMap| - 1] == k
               && DisplayPos(l.indexMap, k) == Some(|l.indexMap| - 1)
               && |l.rows| > 0 && l.rows[|l.rows| - 1].Placeholder?)
    ensures k !in l.indexMap ==> r.Stay?
    ensures DisplayPos(l.indexMap, k).Some? && DisplayPos(l.indexMap, k).value < |l.indexMap| - 1 ==>
              r == SelectTask(l.indexMap[DisplayPos(l.indexMap, k).value + 1])
  {
    var m := l.indexMap;
    var pos := DisplayPos(m, k);
    if pos.None? then Stay
    else if pos.value < |m| - 1 then SelectTask(m[pos.value + 1])
    else if !showCompleted && |l.rows| > 0 && l.rows[|l.rows| - 1].Placeholder? then FocusPlaceholder
    else Stay
  }

  /** A shown task `k` sits between its display neighbours: no task of the same kind lies
      strictly between `k` and the next shown task. */
  lemma NextShownIsNext(tasks: seq<Task>, showCompleted: bool, p: nat)
    requires p + 1 < |IndexMap(tasks, showCompleted)|
    ensures var m := IndexMap(tasks, showCompleted);
            forall j :: m[p] < j < m[p + 1] ==> !Shown(tasks, j, showCompleted)
  {
    var m := IndexMap(tasks, showCompleted);
    forall j | m[p] < j < m[p + 1] ensures !Shown(tasks, j, showCompleted) {
      BetweenNeighboursNotMapped(m, p, j);
    }
  }

  /** Down arrow in a rebuilt listing moves to the next task of the shown kind in storage
      order; from the last shown task it goes to the entry row in the Active view and stays in
      the Completed view; on a task the view hides it does nothing. */
  lemma NavDownSelectsNextShown(tasks: seq<Task>, selected: Option<nat>, showCompleted: bool, k: nat)
    requires k < |tasks|
    ensures var r := NavDown(Rebuild(tasks, selected, showCompleted), k, showCompleted);
            && (r.SelectTask? ==> k < r.index < |tasks| && Shown(tasks, r.index, showCompleted)
                                  && Shown(tasks, k, showCompleted)
                                  && forall j :: k < j < r.index ==> !Shown(tasks, j, showCompleted))
            && (!Shown(tasks, k, showCompleted) ==> r.Stay?)
            && (Shown(tasks, k, showCompleted) && !r.SelectTask? ==>
                  (forall j :: k < j < |tasks| ==> !Shown(tasks, j, showCompleted))
                  && (r.FocusPlaceholder? <==> !showCompleted))
  {
    var l := Rebuild(tasks, selected, showCompleted);
    var m := l.indexMap;
    var r := NavDown(l, k, showCompleted);
    var pos := DisplayPos(m, k);
    if pos.Some? {
      var p := pos.value;
      if p < |m| - 1 {
        assert m[p] < m[p + 1];
        NextShownIsNext(tasks, showCompleted, p);
      } else {
        forall j | k < j < |tasks| ensures !Shown(tasks, j, showCompleted) {
          AfterLastNotMapped(m, j);
        }
      }
    }
  }

  /** Up arrow in a rebuilt listing moves to the previous task of the shown kind in storage
      order, and does nothing from the first shown task or on a task the view hides. */
  lemma NavUpSelectsPreviousShown(tasks: seq<Task>, selected: Option<nat>, showCompleted: bool, k: nat)
    requires k < |tasks|
    ensures var r := NavUp(Rebuild(tasks, selected, showCompleted).indexMap, k);
            && (r.SelectTask? ==> r.index < k && Shown(tasks, r.index, showCompleted)
                                  && Shown(tasks, k, showCompleted)
                                  && forall j :: r.index < j < k ==> !Shown(tasks, j, showCompleted))
            && (r.Stay? ==> !Shown(tasks, k, showCompleted)
                            || forall j :: 0 <= j < k ==> !Shown(tasks, j, showCompleted))
            && !r.FocusPlaceholder?
  {
    var m := IndexMap(tasks, showCompleted);
    var r := NavUp(m, k);
    var pos := DisplayPos(m, k);
    if pos.Some? {
      var p := pos.value;
      if p > 0 {
        NextShownIsNext(tasks, showCompleted, p - 1);
      } else {
        forall j | 0 <= j < k ensures !Shown(tasks, j, showCompleted) {
          BeforeFirstNotMapped(m, j);
        }
      }
    }
  }
}
